=== FILE: README.md ===
# MiniMalloc benchmarking scripts, modelled in Dafny

The scripts benchmark the MiniMalloc static memory allocator. They have two halves.

**Generators.** `generate_testsuite.py` and `generate_mm.py` write workload CSV files. Each file lists buffers as rows `id, lower, upper, size`. Each buffer is live over the half-open time interval `[lower, upper)`.

- The generators compute the workload's *capacity* with `compute_capacity`. This is the peak total size of the buffers live at one time, found by a sweep over allocation and deallocation events.
- They write the capacity into the file name as `<prefix>.cap<capacity>.csv`.
- There are four generators. Three are random: uniform buffers, CNN-like staggered layers, and high-overlap stress. One is deterministic: `generate_mm_csv`.

**Runner.** `run_benchmarks.py` lists the `.csv` files of the workload directory.

- It sorts them by `(workload type rank, numeric index)`, both read from the name by regular expressions.
- For each file it reads the capacity back from the name with `parse_capacity`.
- It runs the allocator and derives metrics from the allocator's output placement. The metrics are peak offset, memory efficiency, fragmentation, size statistics, throughput and CPU/RSS sample statistics.

The Dafny modules follow that structure.

| module | file | contents |
|---|---|---|
| `Wrappers` | `wrappers.dfy` | `Option` and `Result` |
| `Decimal` | `decimal.dfy` | `str(n)` and `int(digits)` on ASCII decimal strings |
| `Workload` | `workload.dfy` | buffer rows, liveness, the file name `<prefix>.cap<c>.csv` |
| `Sweep` | `sweep.dfy` | `compute_capacity`, and the theorem that it is the peak live size |
| `FileNames` | `filenames.dfy` | the regular-expression scans `cap(\d+)`, `([a-zA-Z]+)_` and `_(\d+)`; `parse_capacity`; `extract_type_index` |
| `Generation` | `generation.dfy` | the common tail of every generator: capacity plus file name |
| `TestSuite` | `testsuite.dfy` | the three random generators, and the names the suite gives its files |
| `MmWorkload` | `mm.dfy` | `generate_mm_csv` |
| `FileOrder` | `fileorder.dfy` | `list.sort(key=...)` as a stable sort, and its uniqueness |
| `Benchmarks` | `benchmarks.dfy` | `run_one`'s derived metrics, the file order and the loop of `run_all` |

Every `random.randint(a, b)` call is a parameter of the generator. Its precondition says each value lies in the inclusive range the call draws from. The generators' contracts therefore hold for every possible run.

Launching and sampling the allocator process and reading its output file are a caller-supplied `Result<Observation, string>`. On success it holds elapsed milliseconds, CPU samples, RSS samples and the output rows. On failure it holds the message of any exception raised between starting the allocator and reading its output columns (`run_benchmarks.py:32-82`), which `run_one` and then `run_all` pass on. Examples are `subprocess.Popen` failing to start the allocator (`run_benchmarks.py:32`), a `psutil` error other than `NoSuchProcess` such as `AccessDenied`, which the `except` clauses at `run_benchmarks.py:36-68` do not catch, `pd.read_csv` failing (`run_benchmarks.py:77`), and the `KeyError` of a missing `offset` or `size` column (`run_benchmarks.py:79-82`). Listing the directory is a caller-supplied sequence of names.

Events are sorted as `(time, delta)` tuples (`Sweep.EventLe`). At one instant every deallocation (negative delta) therefore comes before every allocation, and sizes break further ties. Buffers whose intervals only touch, `[0, 5)` and `[5, 10)`, are never live together (`Sweep.TouchingIntervalsExample`).

`compute_capacity` appears twice, at `generate_testsuite.py:6-22` and `generate_mm.py:4-20`. The two copies are the same code, and one model, `Sweep.Capacity`, serves both.

## Model

| member | source | states |
|---|---|---|
| Decimal.DigitsValueOfNatToString | github/scripts/run_benchmarks.py:17 | `int(str(n)) == n`: the capacity a generator prints is the number the runner reads |
| Decimal.NatToStringOfDigitsValue | github/scripts/run_benchmarks.py:17 | a digit string with no leading zero (or "0") is `str(int(s))` |
| Decimal.NatToStringInjective | github/scripts/generate_testsuite.py:37 | distinct indices give distinct decimal strings, so `b{i}` ids differ |
| Workload.Numbered | github/scripts/generate_testsuite.py:33-37 | row `i` is the `i`-th draw labelled `tag + str(i)`, with one row per draw |
| Workload.NumberedDistinct | github/scripts/generate_testsuite.py:37 | the ids `b0, b1, ...` are pairwise distinct |
| Workload.TaggedIdsDistinct | github/scripts/generate_testsuite.py:70-77 | `f{k}` and `w{k}` ids with different counters are different strings |
| Workload.LiveAllIsTotal | github/scripts/generate_mm.py:26-31 | when every buffer is live at `t`, the live size at `t` is the sum of all sizes |
| Sweep.Events | github/scripts/generate_testsuite.py:11-14 | the first loop emits two events per row |
| Sweep.EventsLayout | github/scripts/generate_testsuite.py:12-14 | event `2i` is `(lower_i, size_i)` and event `2i+1` is `(upper_i, -size_i)` |
| Sweep.SortEvents | github/scripts/generate_testsuite.py:15 | `events.sort()` yields a permutation sorted by `(time, delta)` |
| Sweep.SortedPermutationUnique | github/scripts/generate_testsuite.py:15 | two sorted permutations of one event list are equal, so the sorted list does not depend on the sorting algorithm |
| Sweep.SumOfPermutation | github/scripts/generate_testsuite.py:15 | sorting does not change the total of any event weight |
| Sweep.MaxPrefix | github/scripts/generate_testsuite.py:16-21 | the second loop's result bounds every running total, including the empty one (0), and equals one of them |
| Sweep.Capacity | github/scripts/generate_mm.py:4-20 | the copy in `generate_mm.py` gives capacity 0 for an empty workload, and is the same sweep |
| Sweep.ComputeCapacity | github/scripts/generate_testsuite.py:6-22 | the loop-for-loop sweep computes `Capacity`; it is the peak live size when lifetimes are ordered, and lies in `0..TotalSize` for non-negative sizes |
| Sweep.CapacityIsPeak | github/scripts/generate_testsuite.py:15-21 | for `lower <= upper` rows, the capacity is the largest total size live at one instant: it bounds `Live(rows, t)` for every `t` and is attained (or is 0) |
| Sweep.CapacityCoversEachBuffer | github/scripts/generate_testsuite.py:12-21 | in a well-formed workload (`lower < upper`, positive sizes) every buffer fits: `size <= capacity` |
| Sweep.CapacityAtMostTotalSize | github/scripts/generate_testsuite.py:16-21 | with non-negative sizes the capacity never exceeds the sum of all sizes |
| Sweep.DeltasCancel | github/scripts/generate_testsuite.py:12-14 | each row's allocation and deallocation cancel, so all deltas sum to 0 |
| Sweep.FinalUsageIsZero | github/scripts/generate_testsuite.py:18-19 | after the whole sorted sweep `current_usage` is back to 0 |
| Sweep.EventsPermutation | github/scripts/generate_testsuite.py:12-14 | permuting rows permutes their events |
| Sweep.CapacityPermutationInvariant | github/scripts/generate_testsuite.py:15 | the capacity does not depend on the order of the rows |
| Sweep.TwoBuffers | github/scripts/generate_testsuite.py:15-21 | for two well-formed buffers the capacity is the sum of sizes if their intervals overlap, and otherwise the larger size |
| Sweep.TouchingIntervalsExample | github/scripts/generate_testsuite.py:15 | `[0,5)` of size 10 and `[5,10)` of size 20 give 20, because the deallocation at 5 sorts before the allocation |
| Sweep.OverlappingIntervalsExample | github/scripts/generate_testsuite.py:15-21 | overlapping buffers of sizes 4 and 8 give 12 |
| Sweep.NestedIntervalsExample | github/scripts/generate_testsuite.py:15-21 | a buffer nested inside another gives the sum of both sizes |
| FileNames.DigitRunEnd | github/scripts/run_benchmarks.py:14 | `\d+` is greedy: the run is all digits and is followed by a non-digit or the end |
| FileNames.DigitRunEndUnique | github/scripts/run_benchmarks.py:14 | any maximal digit run from `j` is the one `\d+` takes |
| FileNames.FirstMatch | github/scripts/run_benchmarks.py:14 | the scan finds the leftmost position where `cap\d` matches, or reports that none does |
| FileNames.SearchNumber | github/scripts/run_benchmarks.py:127-128 | `None` exactly when no match exists; otherwise the value of the digits captured at the leftmost match |
| FileNames.ParseCapacity | github/scripts/run_benchmarks.py:13-17 | fails exactly when the name has no `cap<digit>`, with the message naming the file; otherwise the value of the digits after the leftmost `cap` |
| FileNames.NoCapConcat | github/scripts/run_benchmarks.py:14 | joining two `cap`-free strings, the first not ending in `c`, `a` or `p`, creates no `cap<digit>` |
| FileNames.ParseFileName | github/scripts/generate_testsuite.py:39-40 | `parse_capacity(f"{prefix}.cap{c}.csv") == c` for every prefix free of `cap<digit>` |
| FileNames.ParseUnderDirectory | github/scripts/run_benchmarks.py:144-145 | prefixing a `cap`-free directory does not change whether or what `parse_capacity` finds |
| FileNames.TypeTag | github/scripts/run_benchmarks.py:122-123 | the tag is the leading letter run when `_` follows it directly, and otherwise `""` |
| FileNames.TypeOrder | github/scripts/run_benchmarks.py:119-124 | `rand` ranks 0, `stress` 1, `cnn` 2, and every other tag 99, in both directions |
| FileNames.ExtractTypeIndex | github/scripts/run_benchmarks.py:114-130 | the key is `(rank of the tag, index)`; the index is infinite exactly when no `_<digit>` occurs, and otherwise the digits after the leftmost one |
| FileNames.KeyLessTotal | github/scripts/run_benchmarks.py:130 | tuple `<` on keys is irreflexive, asymmetric and total |
| FileNames.UnrankedNameExample | github/scripts/run_benchmarks.py:124-128 | `mm_small.cap5.csv` gets key `(99, inf)` |
| Generation.Emit | github/scripts/generate_testsuite.py:39-40 | the file name carries the computed capacity; for ordered lifetimes that is the peak live size, bounded by the total size; a `cap`-free prefix makes the name parse back to it |
| TestSuite.RandomBuffers | github/scripts/generate_testsuite.py:31-49 | `n` rows `b0..`, each inside the drawn ranges, with distinct ids; the peak capacity goes into the name and parses back |
| TestSuite.RandomRows | github/scripts/generate_testsuite.py:34-37 | the rows keep the draws' ranges, every `lower < upper`, and are well-formed when `size_min > 0` |
| TestSuite.Stress | github/scripts/generate_testsuite.py:99-118 | `n` rows `s0..` with `lower <= int(100*max_overlap)`, `lower < upper <= 100` and `4 <= size <= 128`; distinct ids; peak capacity in the name |
| TestSuite.StressRows | github/scripts/generate_testsuite.py:105-109 | the rows keep the draws' ranges and are well-formed |
| TestSuite.ClockAtLeast | github/scripts/generate_testsuite.py:64-81 | the time counter at the start of layer `l` is at least `l` |
| TestSuite.CnnLayerShape | github/scripts/generate_testsuite.py:66-77 | in layer `l`, the feature map starts 0 to jitter steps after the clock `t`, at or after `l`, and lives 3 to 3+jitter steps; the workspace starts 0 or 1 after it and lives 2 to 2+jitter steps; the sizes are `(l+1)` times the drawn factors, so at least 32 and 64 |
| TestSuite.CnnLayerStagger | github/scripts/generate_testsuite.py:68-81 | the next layer's feature map starts between 1 and 1+jitter after this one's |
| TestSuite.CnnFacts | github/scripts/generate_testsuite.py:65-81 | every layer has that shape and stagger; ids are distinct; every buffer is well-formed |
| TestSuite.CnnLike | github/scripts/generate_testsuite.py:54-94 | the rows are `CnnRows(draws)`, so `CnnLayerShape` and `CnnLayerStagger` describe each layer exactly; `2 * layers` rows `f0, w1, f2, ...` meeting the `LayerShape` bounds and the stagger, distinct ids, and the peak capacity in the name |
| TestSuite.SuiteTypeTag | github/scripts/generate_testsuite.py:127 | the type tag of `rand_<...>` is `rand`, and likewise for every letter tag |
| TestSuite.SuiteIndexMatch | github/scripts/generate_testsuite.py:127 | in `<tag>_<digits><non-digit>...` the leftmost `_<digit>` is the one after the tag, and it captures those digits |
| TestSuite.SuiteFileKey | github/scripts/generate_testsuite.py:126-141 | the runner's key for the suite file `<tag>_<k>.cap<c>.csv` is `(rank of tag, k)` |
| TestSuite.SuitePrefixHasNoCap | github/scripts/generate_testsuite.py:127-140 | the prefixes `rand_k`, `stress_k` and `cnn_k` contain no `cap<digit>`, so every suite file's capacity parses back |
| TestSuite.SuiteOrder | github/scripts/run_benchmarks.py:141 | suite file A sorts strictly before B iff A's tag ranks lower, or the tags are equal and A's counter is smaller |
| TestSuite.SuiteTagIsWord | github/scripts/run_benchmarks.py:119 | the three ranked tags are non-empty letter strings |
| TestSuite.Rand2BeforeRand10 | github/scripts/run_benchmarks.py:127-128 | `rand_2` is visited before `rand_10`, because indices compare as numbers |
| MmWorkload.MmSpans | github/scripts/generate_mm.py:24-30 | one span per buffer, the `i`-th being `[0, 10(i+1))` of size `4(i%8+1)` |
| MmWorkload.GenerateMm | github/scripts/generate_mm.py:22-35 | `n` rows `b0..`, row `i` live from 0 to `10(i+1)` with size `4(i%8+1)`, so a multiple of 4 in `4..32`; the capacity is the total size `MmTotal(n)`, which goes into the name and parses back |
| MmWorkload.MmRowsFacts | github/scripts/generate_mm.py:24-30 | the rows have distinct ids, are well-formed, and row `i` is `(0, 10(i+1), 4(i%8+1))` |
| MmWorkload.MmSpanFacts | github/scripts/generate_mm.py:28 | `4 * (i % 8 + 1)` is a multiple of 4 between 4 and 32 |
| MmWorkload.MmCapacityIsTotalSize | github/scripts/generate_mm.py:26-32 | when every buffer starts at 0 and ends after 0, the sweep capacity is the sum of all sizes |
| MmWorkload.MmTotalStep | github/scripts/generate_mm.py:28 | one more buffer adds `4(n%8+1)` to the closed form |
| MmWorkload.MmTotalSizeClosedForm | github/scripts/generate_mm.py:24-30 | the sizes of `n` buffers sum to `144 (n/8) + 2 r (r+1)` with `r = n % 8` |
| MmWorkload.MmCapacityClosedForm | github/scripts/generate_mm.py:32 | the capacity of the `n`-buffer workload is that closed form |
| MmWorkload.MmScriptWorkloads | github/scripts/generate_mm.py:46-48 | `mm_small` (100 buffers) has capacity 1768 and `mm_medium` (500 buffers) 8968 |
| FileOrder.InsertByKey | github/scripts/run_benchmarks.py:141 | inserting into a key-sorted list keeps it sorted, adds exactly the one element and keeps the rest |
| FileOrder.SortBy | github/scripts/run_benchmarks.py:141 | `sort(key=...)` returns a permutation whose keys never decrease |
| FileOrder.WithKeyInsert | github/scripts/run_benchmarks.py:141 | an inserted element lands after every element with its own key |
| FileOrder.SortByStable | github/scripts/run_benchmarks.py:141 | the sort is stable: the elements of each key keep their input order |
| FileOrder.SortedStableUnique | github/scripts/run_benchmarks.py:141 | two key-sorted lists that agree on every key's elements, in order, are equal |
| FileOrder.SortByIsTheStableSort | github/scripts/run_benchmarks.py:141 | any key-sorted ordering that keeps each key's input order is the one `SortBy` returns |
| Benchmarks.MaxOf | github/scripts/run_benchmarks.py:79-80 | `column.max()` is NaN exactly for an empty column; otherwise it bounds every entry and is one of them |
| Benchmarks.MinOf | github/scripts/run_benchmarks.py:81 | `column.min()` is NaN exactly for an empty column; otherwise it bounds every entry from below and is one of them |
| Benchmarks.MaxOrZero | github/scripts/run_benchmarks.py:90-93 | `np.max(samples) if samples else 0.0`: 0 for no samples, otherwise the largest sample |
| Benchmarks.MinReal | github/scripts/run_benchmarks.py:89 | a proof helper: the smallest sample, one of the samples and a lower bound of all of them, which bounds `np.mean` from below; the source computes no minimum of the samples |
| Benchmarks.TotalWithin | github/scripts/run_benchmarks.py:89 | the sum of `n` values bounded by `lo` and `hi` lies in `[n*lo, n*hi]` |
| Benchmarks.MeanWithin | github/scripts/run_benchmarks.py:82-89 | a mean lies between any lower and upper bound of its values |
| Benchmarks.Throughput | github/scripts/run_benchmarks.py:85 | buffers per second: `throughput * elapsed_ms == n * 1000` when time elapsed, else 0; never negative |
| Benchmarks.MemEfficiency | github/scripts/run_benchmarks.py:86 | 0 for capacity 0; otherwise NaN iff the peak is NaN, and `efficiency * capacity == peak`, within `[0, 1]` when `0 <= peak <= capacity` |
| Benchmarks.Fragmentation | github/scripts/run_benchmarks.py:87 | NaN iff the peak is NaN; otherwise `fragmentation + peak == capacity` |
| Benchmarks.Derive | github/scripts/run_benchmarks.py:77-94 | the metrics carry the capacity from the name, the elapsed time and the number of output rows |
| Benchmarks.DerivePeak | github/scripts/run_benchmarks.py:79 | the peak offset is NaN exactly for empty output, and otherwise is the largest offset of the output |
| Benchmarks.PeakIsLargestOffset | github/scripts/run_benchmarks.py:79 | `df["offset"].max()` bounds every offset of the output and is one of them |
| Benchmarks.DeriveFragmentation | github/scripts/run_benchmarks.py:87 | fragmentation is NaN exactly for empty output, and otherwise `fragmentation + peak_offset == capacity` |
| Benchmarks.DeriveEfficiency | github/scripts/run_benchmarks.py:86 | efficiency is 0 for capacity 0; otherwise it is NaN exactly for empty output, and `mem_efficiency * capacity == peak_offset` |
| Benchmarks.DeriveSizes | github/scripts/run_benchmarks.py:80-82 | the size statistics are NaN exactly for empty output; otherwise `max_size` and `min_size` are the largest and smallest size of an output row, each attained, and `min_size <= avg_size <= max_size` |
| Benchmarks.DeriveAverages | github/scripts/run_benchmarks.py:82-89 | `avg_size` is the mean of the output sizes and `avg_cpu` the mean of the CPU samples |
| Benchmarks.MeanTimesCount | github/scripts/run_benchmarks.py:82-89 | a mean times the number of values is their total |
| Benchmarks.DeriveThroughput | github/scripts/run_benchmarks.py:78-85 | the reported throughput is `Throughput` of the number of output rows and the elapsed time |
| Benchmarks.SizeStatsOrdered | github/scripts/run_benchmarks.py:80-82 | for a non-empty column, min <= mean <= max |
| Benchmarks.DeriveSamples | github/scripts/run_benchmarks.py:89-93 | `max_cpu` and `max_rss` are the largest CPU and RSS sample, each attained, and 0 without samples; `avg_cpu` is 0 without samples and otherwise between the smallest sample and `max_cpu` |
| Benchmarks.RunOne | github/scripts/run_benchmarks.py:18-94 | `run_one` raises exactly when the path carries no `cap<digit>` or the allocator run raised; the capacity message comes first, checked before the allocator starts; otherwise it returns the metrics derived with the parsed capacity |
| Benchmarks.WorkloadDirHasNoCap | github/scripts/run_benchmarks.py:9 | `../workloads/` contains no `cap<digit>` and does not end in `c`, `a` or `p` |
| Benchmarks.RunOneUnderWorkloadDir | github/scripts/run_benchmarks.py:144-145 | `run_one(WORKLOAD_DIR + file)` succeeds iff the file name carries a capacity and the allocator run succeeded; it then uses that capacity, and when only the run failed it raises the run's error |
| Benchmarks.GeneratedCapacityReachesRunner | github/scripts/run_benchmarks.py:144-145 | a file named by a generator with a `cap`-free prefix fails only if the allocator run fails, with that error, and otherwise is run with the capacity the generator computed |
| Benchmarks.TwoPlacementExample | github/scripts/run_benchmarks.py:79-87 | placements at offsets 0 and 4 (sizes 4 and 8) against capacity 12 give peak 4, efficiency 1/3, fragmentation 8 and average size 6 |
| Benchmarks.CsvFiles | github/scripts/run_benchmarks.py:140 | a name is kept iff it ends in `.csv`, and each is kept as often as it is listed |
| Benchmarks.CsvFilesConcat | github/scripts/run_benchmarks.py:140 | the filter keeps listing order: the kept names of `a + b` are those of `a` followed by those of `b` |
| Benchmarks.CsvFilesSingle | github/scripts/run_benchmarks.py:140 | a single name is kept exactly when it ends in `.csv`; with `CsvFilesConcat` this fixes the whole result, order included |
| Benchmarks.RunOrderIsStableSort | github/scripts/run_benchmarks.py:140-141 | the visiting order is a permutation of the listed `.csv` files, sorted by `(type rank, index)`, with equal keys in listing order |
| Benchmarks.RunOrderUnique | github/scripts/run_benchmarks.py:141 | no other ordering of the `.csv` files has those three properties |
| Benchmarks.Attempt | github/scripts/run_benchmarks.py:144-145 | running a listed file succeeds iff its name carries a capacity and the allocator run on its path succeeded; the capacity error names the joined path and takes precedence over the run's error |
| Benchmarks.RunFiles | github/scripts/run_benchmarks.py:143-146 | the loop succeeds iff every file succeeds, with one summary row per file in order; otherwise it stops with the first failure's error |
| Benchmarks.FirstFailureOfAttempt | github/scripts/run_benchmarks.py:143-145 | the first failing attempt is the first file `run_one` does not get through, and it fails with that file's capacity message or, if it has a capacity, its run's error |
| Benchmarks.RunAll | github/scripts/run_benchmarks.py:132-146 | `run_all` produces a row `[file] + metrics` for every `.csv` file in visiting order, iff every name carries a capacity and every allocator run succeeds; otherwise it raises the error of the first file in that order that fails either way |

## Left out

- Process control and measurement are not modelled: launching MiniMalloc, `psutil` polling, sleeping and the clock (`run_benchmarks.py:23-74`). Their outcome is the caller-supplied observation, or the exception they raised.
- File I/O is not modelled: `os.listdir`, `os.makedirs`, writing the workload and results CSVs, and `pd.read_csv` of the allocator output. The directory listing and the output rows are parameters.
- Printing and the summary `DataFrame` assembly of `run_all` after the loop are not modelled; the model stops at the list of rows.
- `cpu_std` and `mem_std` (`np.std`, a square root) are not modelled. `Metrics` has no field for them.
- Floating point is modelled as exact real arithmetic: the `float` metrics (times, samples, means, quotients). Rounding is not modelled.
- `max_overlap` is a float in the source. `TestSuite.Stress` takes the already truncated integer `int(100 * max_overlap)` instead.
- `random.randint` is not modelled as a random source. Each draw is a parameter constrained to the inclusive range the call uses.
- TestSuite.RandomBuffers, TestSuite.Stress, TestSuite.CnnLike: the draw preconditions admit only non-empty ranges, so the `ValueError` that `randint(a, b)` raises for `a > b` is not modelled. It arises for `lifetime_max <= 0` or `size_min > size_max` (`generate_testsuite.py:34-36`), for `lifetime_jitter < 0` (`generate_testsuite.py:68-76`), and for `int(100 * max_overlap) < 0`, i.e. `max_overlap <= -0.01`, or `int(100 * max_overlap) >= 100`, i.e. `max_overlap >= 1.0` (`generate_testsuite.py:106-107`). In the first case `randint(0, negative)` raises. In the second `lower` can be 100, and `randint(101, 100)` raises. For `-0.01 < max_overlap < 0` the bound truncates to 0 and nothing raises.
- The default arguments are not modelled: `n_buffers=100, size_min=4, size_max=32, lifetime_max=100` (`generate_testsuite.py:31`), `layers=50, lifetime_jitter=3` (`generate_testsuite.py:54`), `n_buffers=200, max_overlap=0.9` (`generate_testsuite.py:99`) and `n_buffers=50` (`generate_mm.py:22`). Every generator takes all its parameters explicitly.
- pandas reads the `offset` and `size` columns as 64-bit integers (`run_benchmarks.py:79-87`); the model uses unbounded integers, so overflow of those columns and of `capacity - peak_offset` is not modelled.
- Unicode is not modelled: `\d` and `[a-zA-Z]` are taken on ASCII only. Python's `\d` also matches non-ASCII decimal digits.
- The `__main__` loops of `generate_testsuite.py` are modelled only through the names they give their files. Those are `SuiteFileKey`, `SuitePrefixHasNoCap` and `SuiteOrder`. The lists of buffer counts are not modelled.
- `plotting.py` and the results post-processing are not part of this model.
- Sweep.CapacityIsPeak: states the peak property only for rows with `lower <= upper`. A row with `upper < lower` adds a negative amount at `upper` first, and the sweep value then has no meaning as a live size.
- The running total of the sweep is not stated to stay non-negative at every step. Its consequences are proved: the result is the peak live size, at least 0, and ends at 0.
- Benchmarks.Derive: its own contract states only the copied fields. The metric relations are in `DerivePeak`, `DeriveFragmentation`, `DeriveEfficiency`, `DeriveSizes`, `DeriveSamples`, `DeriveAverages` and `DeriveThroughput`.

=== FILE: benchmarks.dfy ===
/** The benchmark runner: the metrics it derives from one allocator run and
    the order in which it visits the workload files. Launching the
    allocator, sampling it and reading its output file are replaced by an
    `Observation` supplied by the caller, or by the error that launching the
    allocator or reading its output raised. */
module Benchmarks {
  import opened Wrappers
  import opened Decimal
  import opened Workload
  import opened FileNames
  import opened FileOrder

  /** `WORKLOAD_DIR`; `os.path.join` with it is concatenation because it
      ends in `/`. */
  const WorkloadDir: string := "../workloads/"

  /** One row of the allocator's output file. */
  datatype Placement = Placement(id: string, offset: int, size: int)

  /** What one allocator run yields: the wall-clock time in milliseconds,
      the CPU-percentage and resident-memory samples taken while it ran, and
      the rows of its output file. */
  datatype Observation = Observation(elapsedMs: real, cpuSamples: seq<real>, rssSamples: seq<real>,
                                     output: seq<Placement>)

  /** The values of the dictionary `run_one` returns. pandas yields NaN for
      the maximum, minimum and mean of an empty column, and NaN propagates
      through arithmetic; `None` stands for NaN. */
  datatype Metrics = Metrics(
    timeMs: real,
    peakOffset: Option<int>,
    avgCpu: real,
    maxCpu: real,
    maxRss: real,
    throughput: real,
    memEfficiency: Option<real>,
    fragmentation: Option<int>,
    maxSize: Option<int>,
    minSize: Option<int>,
    avgSize: Option<real>,
    numBuffers: nat,
    capacity: nat)

  // ----- column statistics -----

  function Offsets(rows: seq<Placement>): (xs: seq<int>)
    ensures |xs| == |rows| && forall i :: 0 <= i < |rows| ==> xs[i] == rows[i].offset
  {
    seq(|rows|, i requires 0 <= i < |rows| => rows[i].offset)
  }

  function Sizes(rows: seq<Placement>): (xs: seq<int>)
    ensures |xs| == |rows| && forall i :: 0 <= i < |rows| ==> xs[i] == rows[i].size
  {
    seq(|rows|, i requires 0 <= i < |rows| => rows[i].size)
  }

  /** `column.max()`: the largest value, NaN for an empty column. */
  function MaxOf(xs: seq<int>): (m: Option<int>)
    ensures m.None? <==> xs == []
    ensures m.Some? ==> forall i :: 0 <= i < |xs| ==> xs[i] <= m.value
    ensures m.Some? ==> exists i :: 0 <= i < |xs| && xs[i] == m.value
  {
    if xs == [] then None
    else
      var last := xs[|xs| - 1];
      match MaxOf(xs[..|xs| - 1])
      case None => Some(last)
      case Some(m) =>
        assert forall i :: 0 <= i < |xs| - 1 ==> xs[i] == xs[..|xs| - 1][i];
        Some(if m < last then last else m)
  }

  /** `column.min()`: the smallest value, NaN for an empty column. */
  function MinOf(xs: seq<int>): (m: Option<int>)
    ensures m.None? <==> xs == []
    ensures m.Some? ==> forall i :: 0 <= i < |xs| ==> m.value <= xs[i]
    ensures m.Some? ==> exists i :: 0 <= i < |xs| && xs[i] == m.value
  {
    if xs == [] then None
    else
      var last := xs[|xs| - 1];
      match MinOf(xs[..|xs| - 1])
      case None => Some(last)
      case Some(m) =>
        assert forall i :: 0 <= i < |xs| - 1 ==> xs[i] == xs[..|xs| - 1][i];
        Some(if last < m then last else m)
  }

  /** `float(np.max(samples)) if samples else 0.0`. The sample lists are
      reals and the output columns integers; Dafny has no generic ordered
      type, so this fold is written again for `real` rather than shared with
      `MaxOf`. */
  function MaxOrZero(xs: seq<real>): (m: real)
    ensures xs == [] ==> m == 0.0
    ensures forall i :: 0 <= i < |xs| ==> xs[i] <= m
    ensures xs != [] ==> exists i :: 0 <= i < |xs| && xs[i] == m
  {
    if xs == [] then 0.0
    else if |xs| == 1 then xs[0]
    else
      var last := xs[|xs| - 1];
      var m := MaxOrZero(xs[..|xs| - 1]);
      assert forall i :: 0 <= i < |xs| - 1 ==> xs[i] == xs[..|xs| - 1][i];
      if m < last then last else m
  }

  /** The smallest sample; a bound for `MeanWithin`. */
  function MinReal(xs: seq<real>): (m: real)
    requires xs != []
    ensures forall i :: 0 <= i < |xs| ==> m <= xs[i]
    ensures exists i :: 0 <= i < |xs| && xs[i] == m
  {
    if |xs| == 1 then xs[0]
    else
      var m := MinReal(xs[..|xs| - 1]);
      assert forall i :: 0 <= i < |xs| - 1 ==> xs[i] == xs[..|xs| - 1][i];
      if xs[|xs| - 1] < m then xs[|xs| - 1] else m
  }

  function Total(xs: seq<real>): real
    decreases |xs|
  {
    if xs == [] then 0.0 else Total(xs[..|xs| - 1]) + xs[|xs| - 1]
  }

  /** The arithmetic mean, in exact arithmetic. */
  function Mean(xs: seq<real>): real
    requires xs != []
  {
    Total(xs) / (|xs| as real)
  }

  /** `float(np.mean(samples)) if samples else 0.0`. */
  function MeanOrZero(xs: seq<real>): real
  {
    if xs == [] then 0.0 else Mean(xs)
  }

  function AsReals(xs: seq<int>): (ys: seq<real>)
    ensures |ys| == |xs| && forall i :: 0 <= i < |xs| ==> ys[i] == xs[i] as real
  {
    seq(|xs|, i requires 0 <= i < |xs| => xs[i] as real)
  }

  lemma {:induction false} TotalWithin(xs: seq<real>, lo: real, hi: real)
    requires forall i :: 0 <= i < |xs| ==> lo <= xs[i] <= hi
    ensures (|xs| as real) * lo <= Total(xs) <= (|xs| as real) * hi
    decreases |xs|
  {
    if xs != [] {
      var init := xs[..|xs| - 1];
      assert forall i :: 0 <= i < |init| ==> init[i] == xs[i];
      TotalWithin(init, lo, hi);
      assert (|xs| as real) * lo == (|init| as real) * lo + lo;
      assert (|xs| as real) * hi == (|init| as real) * hi + hi;
    }
  }

  /** The mean lies between any lower and upper bound of the values. */
  lemma MeanWithin(xs: seq<real>, lo: real, hi: real)
    requires xs != []
    requires forall i :: 0 <= i < |xs| ==> lo <= xs[i] <= hi
    ensures lo <= Mean(xs) <= hi
  {
    TotalWithin(xs, lo, hi);
    var n := |xs| as real;
    assert Total(xs) / n >= (n * lo) / n;
    assert Total(xs) / n <= (n * hi) / n;
  }

  // ----- derived metrics -----

  /** Buffers per second, 0 when no time elapsed. */
  function Throughput(nBuffers: nat, elapsedMs: real): (r: real)
    ensures elapsedMs <= 0.0 ==> r == 0.0
    ensures elapsedMs > 0.0 ==> r * elapsedMs == (nBuffers as real) * 1000.0
    ensures r >= 0.0
  {
    if elapsedMs > 0.0 then (nBuffers as real) * 1000.0 / elapsedMs else 0.0
  }

  /** `peak_offset / capacity if capacity else 0`. */
  function MemEfficiency(peak: Option<int>, capacity: nat): (e: Option<real>)
    ensures capacity == 0 ==> e == Some(0.0)
    ensures capacity > 0 ==> (e.None? <==> peak.None?)
    ensures capacity > 0 && peak.Some? ==> e.value * (capacity as real) == peak.value as real
    ensures capacity > 0 && peak.Some? && 0 <= peak.value <= capacity ==> 0.0 <= e.value <= 1.0
  {
    if capacity == 0 then Some(0.0)
    else match peak
      case None => None
      case Some(p) => Some((p as real) / (capacity as real))
  }

  /** `capacity - peak_offset`. */
  function Fragmentation(peak: Option<int>, capacity: nat): (f: Option<int>)
    ensures f.Some? <==> peak.Some?
    ensures f.Some? ==> f.value + peak.value == capacity
  {
    match peak
    case None => None
    case Some(p) => Some(capacity - p)
  }

  /** The metrics of one run against the capacity taken from the file name. */
  function Derive(capacity: nat, obs: Observation): (m: Metrics)
    ensures m.capacity == capacity && m.timeMs == obs.elapsedMs && m.numBuffers == |obs.output|
  {
    var peak := MaxOf(Offsets(obs.output));
    var sizes := Sizes(obs.output);
    var avgSize := if sizes == [] then None else Some(Mean(AsReals(sizes)));
    Metrics(
      obs.elapsedMs, peak,
      MeanOrZero(obs.cpuSamples), MaxOrZero(obs.cpuSamples), MaxOrZero(obs.rssSamples),
      Throughput(|obs.output|, obs.elapsedMs),
      MemEfficiency(peak, capacity), Fragmentation(peak, capacity),
      MaxOf(sizes), MinOf(sizes), avgSize,
      |obs.output|, capacity)
  }

  /** The peak offset is the largest offset of the output, NaN exactly when
      the output is empty. */
  lemma DerivePeak(capacity: nat, obs: Observation)
    ensures var m := Derive(capacity, obs);
      && (m.peakOffset.None? <==> obs.output == [])
      && (m.peakOffset.Some? ==> forall i :: 0 <= i < |obs.output| ==> obs.output[i].offset <= m.peakOffset.value)
      && (m.peakOffset.Some? ==> exists i :: 0 <= i < |obs.output| && obs.output[i].offset == m.peakOffset.value)
  {
    assert Derive(capacity, obs).peakOffset == MaxOf(Offsets(obs.output));
    PeakIsLargestOffset(obs.output);
  }

  /** Fragmentation is the capacity left above the peak offset. */
  lemma DeriveFragmentation(capacity: nat, obs: Observation)
    ensures var m := Derive(capacity, obs);
      && (m.fragmentation.Some? <==> obs.output != [])
      && (m.fragmentation.Some? ==> m.fragmentation.value + m.peakOffset.value == capacity)
  {
    var peak := MaxOf(Offsets(obs.output));
    var m := Derive(capacity, obs);
    assert m.peakOffset == peak && m.fragmentation == Fragmentation(peak, capacity);
  }

  /** Memory efficiency is the peak offset as a fraction of the capacity. */
  lemma DeriveEfficiency(capacity: nat, obs: Observation)
    ensures var m := Derive(capacity, obs);
      && (capacity == 0 ==> m.memEfficiency == Some(0.0))
      && (capacity > 0 ==> (m.memEfficiency.Some? <==> obs.output != []))
      && (capacity > 0 && m.memEfficiency.Some? ==>
            m.memEfficiency.value * (capacity as real) == m.peakOffset.value as real)
  {
    var peak := MaxOf(Offsets(obs.output));
    var m := Derive(capacity, obs);
    assert m.peakOffset == peak && m.memEfficiency == MemEfficiency(peak, capacity);
  }

  /** `df["offset"].max()` in terms of the output rows. */
  lemma PeakIsLargestOffset(output: seq<Placement>)
    ensures MaxOf(Offsets(output)).None? <==> output == []
    ensures MaxOf(Offsets(output)).Some? ==>
      forall i :: 0 <= i < |output| ==> output[i].offset <= MaxOf(Offsets(output)).value
    ensures MaxOf(Offsets(output)).Some? ==>
      exists i :: 0 <= i < |output| && output[i].offset == MaxOf(Offsets(output)).value
  {
    var offsets := Offsets(output);
    var peak := MaxOf(offsets);
    if peak.Some? {
      var i :| 0 <= i < |offsets| && offsets[i] == peak.value;
      assert output[i].offset == peak.value;
    }
  }

  /** The size statistics are NaN exactly for an empty output; otherwise
      `max_size` and `min_size` are the largest and smallest size of the
      output, `avg_size` is the sizes' mean, and
      `min_size <= avg_size <= max_size`; `DeriveAverages` gives the mean. */
  lemma DeriveSizes(capacity: nat, obs: Observation)
    ensures var m := Derive(capacity, obs);
      && (m.minSize.Some? <==> obs.output != [])
      && (m.maxSize.Some? <==> obs.output != [])
      && (m.avgSize.Some? <==> obs.output != [])
      && (m.maxSize.Some? ==> forall i :: 0 <= i < |obs.output| ==> obs.output[i].size <= m.maxSize.value)
      && (m.maxSize.Some? ==> exists i :: 0 <= i < |obs.output| && obs.output[i].size == m.maxSize.value)
      && (m.minSize.Some? ==> forall i :: 0 <= i < |obs.output| ==> m.minSize.value <= obs.output[i].size)
      && (m.minSize.Some? ==> exists i :: 0 <= i < |obs.output| && obs.output[i].size == m.minSize.value)
      && (m.avgSize.Some? ==> m.minSize.value as real <= m.avgSize.value <= m.maxSize.value as real)
  {
    var sizes := Sizes(obs.output);
    var m := Derive(capacity, obs);
    assert m.maxSize == MaxOf(sizes) && m.minSize == MinOf(sizes);
    if sizes != [] {
      var i :| 0 <= i < |sizes| && sizes[i] == MaxOf(sizes).value;
      assert obs.output[i].size == m.maxSize.value;
      var j :| 0 <= j < |sizes| && sizes[j] == MinOf(sizes).value;
      assert obs.output[j].size == m.minSize.value;
    }
    SizeStatsOrdered(sizes);
  }

  /** `avg_size` and `avg_cpu` are the means of the sizes and of the CPU
      samples (`MeanTimesCount` says what a mean is). */
  lemma DeriveAverages(capacity: nat, obs: Observation)
    ensures obs.output != [] ==> Derive(capacity, obs).avgSize == Some(Mean(AsReals(Sizes(obs.output))))
    ensures obs.cpuSamples != [] ==> Derive(capacity, obs).avgCpu == Mean(obs.cpuSamples)
  {
  }

  /** A mean times the number of values is their total. */
  lemma MeanTimesCount(xs: seq<real>)
    requires xs != []
    ensures Mean(xs) * (|xs| as real) == Total(xs)
  {
  }

  /** The sample maxima are the largest samples and are 0 without samples;
      the CPU average lies between the smallest and the largest sample. */
  lemma DeriveSamples(capacity: nat, obs: Observation)
    ensures var m := Derive(capacity, obs);
      && (forall i :: 0 <= i < |obs.cpuSamples| ==> obs.cpuSamples[i] <= m.maxCpu)
      && (obs.cpuSamples != [] ==> exists i :: 0 <= i < |obs.cpuSamples| && obs.cpuSamples[i] == m.maxCpu)
      && (forall i :: 0 <= i < |obs.rssSamples| ==> obs.rssSamples[i] <= m.maxRss)
      && (obs.rssSamples != [] ==> exists i :: 0 <= i < |obs.rssSamples| && obs.rssSamples[i] == m.maxRss)

      && (obs.cpuSamples == [] ==> m.avgCpu == 0.0 && m.maxCpu == 0.0)
      && (obs.rssSamples == [] ==> m.maxRss == 0.0)
      && (obs.cpuSamples != [] ==> MinReal(obs.cpuSamples) <= m.avgCpu <= m.maxCpu)
  {
    var cpu := obs.cpuSamples;
    if cpu != [] {
      MeanWithin(cpu, MinReal(cpu), MaxOrZero(cpu));
    }
  }

  /** Throughput is `Throughput` of the output rows and the elapsed time:
      rows per second, 0 when no time elapsed. */
  lemma DeriveThroughput(capacity: nat, obs: Observation)
    ensures Derive(capacity, obs).throughput == Throughput(|obs.output|, obs.elapsedMs)
  {
  }

  /** min_size <= avg_size <= max_size. */
  lemma SizeStatsOrdered(sizes: seq<int>)
    ensures sizes != [] ==> MinOf(sizes).value as real <= Mean(AsReals(sizes)) <= MaxOf(sizes).value as real
  {
    if sizes != [] {
      MeanWithin(AsReals(sizes), MinOf(sizes).value as real, MaxOf(sizes).value as real);
    }
  }

  // ----- one run -----

  /** `run_one(path)`: the capacity comes from the path; a path without
      `cap<digits>` raises `ValueError` before the allocator is started.
      Otherwise `obs` is what running the allocator on the path produced,
      or the exception that starting it or reading its output raised. */
  function RunOne(path: string, obs: Result<Observation, string>): (r: Result<Metrics, string>)
    ensures r.Failure? <==> NoMatch(Cap, path) || obs.Failure?
    ensures NoMatch(Cap, path) ==> r.error == "Capacity missing in filename: " + path
    ensures !NoMatch(Cap, path) && obs.Failure? ==> r.error == obs.error
    ensures r.Success? ==> r.value == Derive(ParseCapacity(path).value, obs.value)
  {
    match ParseCapacity(path)
    case Failure(e) => Failure(e)
    case Success(c) =>
      match obs
      case Failure(e) => Failure(e)
      case Success(o) => Success(Derive(c, o))
  }

  lemma WorkloadDirHasNoCap()
    ensures NoMatch(Cap, WorkloadDir)
    ensures WorkloadDir[|WorkloadDir| - 1] !in "cap"
  {
    var s := WorkloadDir;
    forall i | 0 <= i < |s| ensures !MatchAt(Cap, s, i) {
      if i + 3 < |s| {
        assert s[i..i + 3][0] == s[i];
        assert s[i..i + 3][1] == s[i + 1];
      }
    }
  }

  /** The runner reads from a file under the workload directory the capacity
      its name carries. */
  lemma RunOneUnderWorkloadDir(file: string, obs: Result<Observation, string>)
    ensures RunOne(WorkloadDir + file, obs).Success? <==> ParseCapacity(file).Success? && obs.Success?
    ensures ParseCapacity(file).Success? && obs.Success? ==>
      RunOne(WorkloadDir + file, obs).value.capacity == ParseCapacity(file).value
    ensures ParseCapacity(file).Success? && obs.Failure? ==> RunOne(WorkloadDir + file, obs).error == obs.error
  {
    WorkloadDirHasNoCap();
    ParseUnderDirectory(WorkloadDir, file);
  }

  /** The capacity a generator put in the file name is the capacity the
      runner passes to the allocator. */
  lemma GeneratedCapacityReachesRunner(prefix: string, capacity: nat, obs: Result<Observation, string>)
    requires NoMatch(Cap, prefix)
    ensures RunOne(WorkloadDir + FileName(prefix, capacity), obs).Success? <==> obs.Success?
    ensures obs.Success? ==> RunOne(WorkloadDir + FileName(prefix, capacity), obs).value.capacity == capacity
    ensures obs.Failure? ==> RunOne(WorkloadDir + FileName(prefix, capacity), obs).error == obs.error
  {
    ParseFileName(prefix, capacity);
    RunOneUnderWorkloadDir(FileName(prefix, capacity), obs);
  }

  /** Two buffers of sizes 4 and 8 placed at offsets 0 and 4 against a
      capacity of 12. */
  lemma TwoPlacementExample(elapsedMs: real, cpu: seq<real>, rss: seq<real>)
    ensures var m := Derive(12, Observation(elapsedMs, cpu, rss, [Placement("a", 0, 4), Placement("b", 4, 8)]));
      && m.peakOffset == Some(4)
      && m.memEfficiency == Some(1.0 / 3.0)
      && m.fragmentation == Some(8)
      && m.avgSize == Some(6.0)
  {
    var rows := [Placement("a", 0, 4), Placement("b", 4, 8)];
    assert Offsets(rows) == [0, 4];
    assert Offsets(rows)[..1] == [0];
    assert Sizes(rows) == [4, 8];
    assert AsReals(Sizes(rows)) == [4.0, 8.0];
    assert [4.0, 8.0][..1] == [4.0];
    assert [4.0][..0] == [];
  }

  // ----- the run over all workloads -----

  predicate EndsWithCsv(name: string)
  {
    |name| >= 4 && name[|name| - 4..] == ".csv"
  }

  /** The names of the directory listing that end in `.csv`, in listing
      order. */
  function CsvFiles(listing: seq<string>): (files: seq<string>)
    ensures forall f :: f in files <==> f in listing && EndsWithCsv(f)
    ensures forall f {:trigger multiset(files)[f]} :: multiset(files)[f] == (if EndsWithCsv(f) then multiset(listing)[f] else 0)
    decreases |listing|
  {
    if listing == [] then []
    else
      var init, last := listing[..|listing| - 1], listing[|listing| - 1];
      assert listing == init + [last];
      CsvFiles(init) + (if EndsWithCsv(last) then [last] else [])
  }

  /** The filter keeps listing order: the kept names of a concatenation are
      those of the first part followed by those of the second. */
  lemma {:induction false} CsvFilesConcat(a: seq<string>, b: seq<string>)
    ensures CsvFiles(a + b) == CsvFiles(a) + CsvFiles(b)
    decreases |b|
  {
    if b == [] {
      assert a + b == a;
    } else {
      var init, last := b[..|b| - 1], b[|b| - 1];
      var tail := if EndsWithCsv(last) then [last] else [];
      assert b == init + [last];
      assert CsvFiles(a + b) == CsvFiles(a + init) + tail by {
        assert a + b == (a + init) + [last];
        CsvFilesSnoc(a + init, last);
      }
      assert CsvFiles(b) == CsvFiles(init) + tail by {
        CsvFilesSnoc(init, last);
      }
      CsvFilesConcat(a, init);
      var front, middle := CsvFiles(a), CsvFiles(init);
      assert (front + middle) + tail == front + (middle + tail);
    }
  }

  lemma CsvFilesSnoc(s: seq<string>, x: string)
    ensures CsvFiles(s + [x]) == CsvFiles(s) + if EndsWithCsv(x) then [x] else []
  {
    var l := s + [x];
    assert l[..|l| - 1] == s;
  }

  /** On one name the filter keeps it exactly when it ends in `.csv`. */
  lemma CsvFilesSingle(x: string)
    ensures CsvFiles([x]) == if EndsWithCsv(x) then [x] else []
  {
    assert [x][..0] == [];
  }

  /** The order `run_all` visits the workloads in. */
  function RunOrder(listing: seq<string>): seq<string>
  {
    SortBy(CsvFiles(listing), ExtractTypeIndex)
  }

  /** The visiting order holds exactly the listing's `.csv` files, sorted by
      `(type rank, index)`, with files of equal key in listing order. */
  lemma RunOrderIsStableSort(listing: seq<string>)
    ensures multiset(RunOrder(listing)) == multiset(CsvFiles(listing))
    ensures SortedBy(RunOrder(listing), ExtractTypeIndex)
    ensures forall k :: WithKey(RunOrder(listing), ExtractTypeIndex, k) == WithKey(CsvFiles(listing), ExtractTypeIndex, k)
  {
    forall k ensures WithKey(RunOrder(listing), ExtractTypeIndex, k) == WithKey(CsvFiles(listing), ExtractTypeIndex, k) {
      SortByStable(CsvFiles(listing), ExtractTypeIndex, k);
    }
  }

  /** No other order of the `.csv` files has those properties. */
  lemma RunOrderUnique(listing: seq<string>, r: seq<string>)
    requires SortedBy(r, ExtractTypeIndex)
    requires forall k :: WithKey(r, ExtractTypeIndex, k) == WithKey(CsvFiles(listing), ExtractTypeIndex, k)
    ensures r == RunOrder(listing)
  {
    SortByIsTheStableSort(CsvFiles(listing), ExtractTypeIndex, r);
  }

  /** One row of the summary table: the workload's file name and its
      metrics. */
  datatype Summary = Summary(workload: string, metrics: Metrics)

  /** `run_one` gets through a listed file: its name carries a capacity and
      the allocator run on it produced an output. */
  predicate Runnable(file: string, observe: string -> Result<Observation, string>)
  {
    ParseCapacity(file).Success? && observe(WorkloadDir + file).Success?
  }

  /** The metrics `run_one` reports for a runnable file. */
  function Expected(file: string, observe: string -> Result<Observation, string>): Metrics
    requires Runnable(file, observe)
  {
    Derive(ParseCapacity(file).value, observe(WorkloadDir + file).value)
  }

  /** The run of `run_one` on a listed file. */
  function Attempt(file: string, observe: string -> Result<Observation, string>): (r: Result<Metrics, string>)
    ensures r.Success? <==> Runnable(file, observe)
    ensures r.Success? ==> r.value == Expected(file, observe)
    ensures ParseCapacity(file).Failure? ==> r.error == "Capacity missing in filename: " + WorkloadDir + file
    ensures ParseCapacity(file).Success? && observe(WorkloadDir + file).Failure? ==>
      r.error == observe(WorkloadDir + file).error
  {
    WorkloadDirHasNoCap();
    ParseUnderDirectory(WorkloadDir, file);
    RunOne(WorkloadDir + file, observe(WorkloadDir + file))
  }

  /** The exception `run_one` raises on a file it does not get through: the
      capacity message, raised first, or what the allocator run raised. */
  function RunError(file: string, observe: string -> Result<Observation, string>): string
    requires !Runnable(file, observe)
  {
    if ParseCapacity(file).Failure? then "Capacity missing in filename: " + WorkloadDir + file
    else observe(WorkloadDir + file).error
  }

  /** `files[i]` is the first of `files` that `run_one` does not get
      through. */
  predicate FailsFirst(files: seq<string>, observe: string -> Result<Observation, string>, i: int)
    requires 0 <= i < |files|
  {
    !Runnable(files[i], observe) && forall j :: 0 <= j < i ==> Runnable(files[j], observe)
  }

  /** `run_all`: every `.csv` file of the listing in `RunOrder`, each run
      with what `observe` reports for its path; the first file whose name
      carries no capacity, or whose allocator run raised, aborts the run
      with that file's error. */
  method RunAll(listing: seq<string>, observe: string -> Result<Observation, string>)
    returns (r: Result<seq<Summary>, string>)
    ensures var files := RunOrder(listing);
      && (r.Success? <==> forall i :: 0 <= i < |files| ==> Runnable(files[i], observe))
      && (r.Success? ==> |r.value| == |files| && forall i :: 0 <= i < |files| ==>
            r.value[i] == Summary(files[i], Expected(files[i], observe)))
      && (r.Failure? ==>
            exists i :: 0 <= i < |files| && FailsFirst(files, observe, i) && r.error == RunError(files[i], observe))
  {
    var files := RunOrder(listing);
    var attempt := f => Attempt(f, observe);
    r := RunFiles(files, attempt);
    if r.Failure? {
      var i :| 0 <= i < |files| && FirstFailure(files, attempt, i) && r.error == attempt(files[i]).error;
      FirstFailureOfAttempt(files, observe, i);
    } else {
      AllAttemptsSucceed(files, observe);
    }
  }

  /** The first failing attempt is the first file that is not runnable, and
      its error is the capacity message or the allocator run's. */
  lemma FirstFailureOfAttempt(files: seq<string>, observe: string -> Result<Observation, string>, i: int)
    requires 0 <= i < |files|
    requires FirstFailure(files, f => Attempt(f, observe), i)
    ensures FailsFirst(files, observe, i)
    ensures Attempt(files[i], observe).error == RunError(files[i], observe)
  {
    forall j | 0 <= j < i ensures Runnable(files[j], observe) {
      assert Attempt(files[j], observe).Success?;
    }
  }

  lemma AllAttemptsSucceed(files: seq<string>, observe: string -> Result<Observation, string>)
    requires forall i :: 0 <= i < |files| ==> Attempt(files[i], observe).Success?
    ensures forall i :: 0 <= i < |files| ==> Runnable(files[i], observe)
    ensures forall i :: 0 <= i < |files| ==> Attempt(files[i], observe).value == Expected(files[i], observe)
  {
  }

  predicate FirstFailure(files: seq<string>, attempt: string -> Result<Metrics, string>, i: int)
    requires 0 <= i < |files|
  {
    attempt(files[i]).Failure? && forall j :: 0 <= j < i ==> attempt(files[j]).Success?
  }

  /** The loop of `run_all`: each file in turn, stopping at the first
      failure. */
  method RunFiles(files: seq<string>, attempt: string -> Result<Metrics, string>) returns (r: Result<seq<Summary>, string>)
    ensures r.Success? <==> forall i :: 0 <= i < |files| ==> attempt(files[i]).Success?
    ensures r.Success? ==> |r.value| == |files|
    ensures r.Success? ==> forall i :: 0 <= i < |files| ==> r.value[i] == Summary(files[i], attempt(files[i]).value)
    ensures r.Failure? ==> exists i :: 0 <= i < |files| && FirstFailure(files, attempt, i) && r.error == attempt(files[i]).error
  {
    var results: seq<Summary> := [];
    var i := 0;
    while i < |files|
      invariant 0 <= i <= |files|
      invariant |results| == i
      invariant forall j :: 0 <= j < i ==> attempt(files[j]).Success?
      invariant forall j :: 0 <= j < i ==> results[j] == Summary(files[j], attempt(files[j]).value)
    {
      var outcome := attempt(files[i]);
      if outcome.Failure? {
        return Failure(outcome.error);
      }
      results := results + [Summary(files[i], outcome.value)];
      i := i + 1;
    }
    return Success(results);
  }
}

=== FILE: decimal.dfy ===
/** ASCII character classes and the decimal text of natural numbers, as used by
    Python's `str(n)` for `n >= 0`, `int(digits)` and the regular-expression
    classes `\d` and `[a-zA-Z]` (restricted to ASCII). */
module Decimal {

  predicate IsDigit(c: char) { '0' <= c <= '9' }

  predicate IsLetter(c: char) { 'a' <= c <= 'z' || 'A' <= c <= 'Z' }

  predicate AllDigits(s: string) { forall i :: 0 <= i < |s| ==> IsDigit(s[i]) }

  predicate AllLetters(s: string) { forall i :: 0 <= i < |s| ==> IsLetter(s[i]) }

  function DigitChar(d: nat): (c: char)
    requires d < 10
    ensures IsDigit(c)
  {
    ('0' as int + d) as char
  }

  function DigitValue(c: char): (d: nat)
    requires IsDigit(c)
    ensures d < 10 && DigitChar(d) == c
  {
    c as int - '0' as int
  }

  /** Python's `str(n)` for a natural number: its shortest decimal text. */
  function NatToString(n: nat): (s: string)
    ensures 1 <= |s| && AllDigits(s)
    ensures s[0] == '0' ==> n == 0 && |s| == 1
    decreases n
  {
    if n < 10 then [DigitChar(n)] else NatToString(n / 10) + [DigitChar(n % 10)]
  }

  /** Python's `int(s)` on a string of ASCII digits (leading zeros allowed). */
  function DigitsValue(s: string): nat
    requires AllDigits(s)
    decreases |s|
  {
    if s == [] then 0 else DigitsValue(s[..|s| - 1]) * 10 + DigitValue(s[|s| - 1])
  }

  /** `int(str(n)) == n`. */
  lemma {:induction false} DigitsValueOfNatToString(n: nat)
    ensures DigitsValue(NatToString(n)) == n
    decreases n
  {
    var s := NatToString(n);
    if n < 10 {
      assert s[..|s| - 1] == [];
    } else {
      DigitsValueOfNatToString(n / 10);
      assert s[..|s| - 1] == NatToString(n / 10);
    }
  }

  /** Distinct numbers have distinct decimal texts. */
  lemma NatToStringInjective(a: nat, b: nat)
    ensures NatToString(a) == NatToString(b) ==> a == b
  {
    DigitsValueOfNatToString(a);
    DigitsValueOfNatToString(b);
  }

  /** `str(int(s)) == s` for every canonical digit string (no leading zero). */
  lemma {:induction false} NatToStringOfDigitsValue(s: string)
    requires 1 <= |s| && AllDigits(s)
    requires s[0] == '0' ==> |s| == 1
    ensures NatToString(DigitsValue(s)) == s
    decreases |s|
  {
    var init := s[..|s| - 1];
    var d := DigitValue(s[|s| - 1]);
    if |s| == 1 {
      assert init == [];
    } else {
      assert init[0] == s[0];
      NatToStringOfDigitsValue(init);
      var v := DigitsValue(init);
      assert v >= 1;
      assert DigitsValue(s) == v * 10 + d;
      assert (v * 10 + d) / 10 == v && (v * 10 + d) % 10 == d;
      assert s == init + [s[|s| - 1]];
    }
  }
}

=== FILE: filenames.dfy ===
/** The two regular-expression scans of the benchmark runner over workload
    file names: `re.search(r"cap(\d+)", name)` in `parse_capacity` and
    `re.match(r'([a-zA-Z]+)_', name)` / `re.search(r'_(\d+)', name)` in
    `extract_type_index`. Digits and letters are ASCII. */
module FileNames {
  import opened Wrappers
  import opened Decimal
  import opened Workload

  /** The literal that precedes the captured digit run. */
  datatype Anchor = Cap | Underscore

  function Literal(a: Anchor): string
  {
    match a
    case Cap => "cap"
    case Underscore => "_"
  }

  /** The pattern `literal\d` matches at position `i`. */
  predicate MatchAt(a: Anchor, s: string, i: int)
  {
    var n := |Literal(a)|;
    0 <= i && i + n < |s| && s[i..i + n] == Literal(a) && IsDigit(s[i + n])
  }

  /** `i` is the leftmost match, the one `re.search` reports. */
  predicate FirstMatchAt(a: Anchor, s: string, i: int)
  {
    MatchAt(a, s, i) && forall j :: 0 <= j < i ==> !MatchAt(a, s, j)
  }

  predicate NoMatch(a: Anchor, s: string)
  {
    forall i :: 0 <= i < |s| ==> !MatchAt(a, s, i)
  }

  /** End of the maximal run of ASCII digits starting at `j` (`\d+` is greedy). */
  function DigitRunEnd(s: string, j: nat): (e: nat)
    requires j <= |s|
    ensures j <= e <= |s|
    ensures AllDigits(s[j..e])
    ensures e == |s| || !IsDigit(s[e])
    decreases |s| - j
  {
    if j < |s| && IsDigit(s[j]) then
      var e := DigitRunEnd(s, j + 1);
      assert s[j..e] == [s[j]] + s[j + 1..e];
      e
    else j
  }

  /** A run that is all digits and cannot be extended is the greedy one. */
  lemma {:induction false} DigitRunEndUnique(s: string, j: nat, e: nat)
    requires j <= e <= |s|
    requires AllDigits(s[j..e])
    requires e == |s| || !IsDigit(s[e])
    ensures DigitRunEnd(s, j) == e
    decreases e - j
  {
    if j < e {
      assert s[j..e][0] == s[j];
      assert s[j + 1..e] == s[j..e][1..];
      DigitRunEndUnique(s, j + 1, e);
    }
  }

  function FirstMatch(a: Anchor, s: string, from: nat): (r: Option<nat>)
    requires from <= |s|
    ensures r.None? ==> forall i :: from <= i ==> !MatchAt(a, s, i)
    ensures r.Some? ==> from <= r.value && MatchAt(a, s, r.value)
    ensures r.Some? ==> forall i :: from <= i < r.value ==> !MatchAt(a, s, i)
    decreases |s| - from
  {
    if from == |s| then None
    else if MatchAt(a, s, from) then Some(from)
    else FirstMatch(a, s, from + 1)
  }

  /** The captured digits of a match at `i`. */
  function GroupAt(a: Anchor, s: string, i: int): (g: string)
    requires MatchAt(a, s, i)
    ensures 1 <= |g| && AllDigits(g)
  {
    var n := |Literal(a)|;
    s[i + n..DigitRunEnd(s, i + n)]
  }

  /** `int(m.group(1))` of `re.search(literal + r"(\d+)", s)`, or `None` when
      there is no match. */
  function SearchNumber(a: Anchor, s: string): (r: Option<nat>)
    ensures r.None? <==> NoMatch(a, s)
    ensures forall i :: FirstMatchAt(a, s, i) ==> r == Some(DigitsValue(GroupAt(a, s, i)))
  {
    match FirstMatch(a, s, 0)
    case None => None
    case Some(i) =>
      assert forall j :: FirstMatchAt(a, s, j) ==> j == i;
      Some(DigitsValue(GroupAt(a, s, i)))
  }

  /** `parse_capacity`: the number after the first `cap` that is followed by a
      digit; `ValueError` when there is none. */
  function ParseCapacity(name: string): (r: Result<nat, string>)
    ensures r.Failure? <==> NoMatch(Cap, name)
    ensures r.Failure? ==> r.error == "Capacity missing in filename: " + name
    ensures forall i :: FirstMatchAt(Cap, name, i) ==> r == Success(DigitsValue(GroupAt(Cap, name, i)))
  {
    match SearchNumber(Cap, name)
    case None => Failure("Capacity missing in filename: " + name)
    case Some(v) => Success(v)
  }

  // ----- file names written by the generators -----

  /** Appending to a name free of `cap<digit>` after a character that cannot
      start or continue `cap` gives no new match before the appended part. */
  lemma NoCapConcat(a: string, b: string)
    requires NoMatch(Cap, a) && NoMatch(Cap, b)
    requires a != [] ==> a[|a| - 1] !in "cap"
    ensures NoMatch(Cap, a + b)
  {
    var s := a + b;
    forall i | 0 <= i < |s| ensures !MatchAt(Cap, s, i) {
      if i + 3 >= |s| {
      } else if i + 3 < |a| {
        assert a[i..i + 3] == s[i..i + 3];
        assert !MatchAt(Cap, a, i);
      } else if i >= |a| {
        assert b[i - |a|..i - |a| + 3] == s[i..i + 3];
        assert !MatchAt(Cap, b, i - |a|);
      } else {
        assert a[|a| - 1] == s[|a| - 1];
      }
    }
  }

  /** `parse_capacity(prefix + ".cap" + str(c) + ".csv") == c` whenever the
      prefix holds no `cap<digit>`. */
  lemma ParseFileName(prefix: string, c: nat)
    requires NoMatch(Cap, prefix)
    ensures ParseCapacity(FileName(prefix, c)) == Success(c)
  {
    var d := NatToString(c);
    var name := FileName(prefix, c);
    var rest := ".cap" + d + ".csv";
    assert name == prefix + rest;
    NoCapBeforeDot(prefix, rest);
    CapGroupAfterPrefix(prefix, d);
    assert FirstMatchAt(Cap, name, |prefix| + 1);
    DigitsValueOfNatToString(c);
  }

  /** A `cap`-free prefix followed by `.` has no match up to the dot. */
  lemma NoCapBeforeDot(prefix: string, rest: string)
    requires NoMatch(Cap, prefix) && rest != [] && rest[0] == '.'
    ensures forall j :: 0 <= j <= |prefix| ==> !MatchAt(Cap, prefix + rest, j)
  {
    var name := prefix + rest;
    var p := |prefix|;
    forall j | 0 <= j <= p ensures !MatchAt(Cap, name, j) {
      if j + 3 < p {
        assert prefix[j..j + 3] == name[j..j + 3];
        assert !MatchAt(Cap, prefix, j);
      } else if j + 3 == p {
        assert name[p] == '.';
      } else if j + 3 < |name| {
        assert name[j..j + 3][p - j] == name[p] == '.';
      }
    }
  }

  /** In `prefix.cap<d>.csv` the pattern matches after the dot and captures `d`. */
  lemma CapGroupAfterPrefix(prefix: string, d: string)
    requires 1 <= |d| && AllDigits(d)
    ensures MatchAt(Cap, prefix + ".cap" + d + ".csv", |prefix| + 1)
    ensures GroupAt(Cap, prefix + ".cap" + d + ".csv", |prefix| + 1) == d
  {
    var name := prefix + ".cap" + d + ".csv";
    var p := |prefix|;
    assert name[p + 1..p + 4] == "cap";
    assert name[p + 4] == d[0];
    assert name[p + 4..p + 4 + |d|] == d;
    assert name[p + 4 + |d|] == '.';
    DigitRunEndUnique(name, p + 4, p + 4 + |d|);
  }

  /** Joining a directory free of `cap<digit>` that does not end in a
      letter of `cap` in front of a file name does not change what
      `parse_capacity` reads from it. */
  lemma ParseUnderDirectory(dir: string, file: string)
    requires NoMatch(Cap, dir)
    requires dir != [] ==> dir[|dir| - 1] !in "cap"
    ensures ParseCapacity(dir + file).Success? <==> ParseCapacity(file).Success?
    ensures ParseCapacity(file).Success? ==> ParseCapacity(dir + file) == ParseCapacity(file)
  {
    match FirstMatch(Cap, file, 0)
    case None =>
      NoCapConcat(dir, file);
    case Some(i) =>
      FirstCapUnderDirectory(dir, file, i);
      CapGroupUnderDirectory(dir, file, i);
  }

  lemma FirstCapUnderDirectory(dir: string, file: string, i: nat)
    requires NoMatch(Cap, dir)
    requires dir != [] ==> dir[|dir| - 1] !in "cap"
    requires FirstMatchAt(Cap, file, i)
    ensures FirstMatchAt(Cap, dir + file, |dir| + i)
  {
    var s := dir + file;
    var p := |dir|;
    assert s[p + i..p + i + 3] == file[i..i + 3];
    assert s[p + i + 3] == file[i + 3];
    forall j | 0 <= j < p + i ensures !MatchAt(Cap, s, j) {
      if j + 3 >= |s| {
      } else if j + 3 < p {
        assert dir[j..j + 3] == s[j..j + 3];
        assert !MatchAt(Cap, dir, j);
      } else if j >= p {
        assert file[j - p..j - p + 3] == s[j..j + 3];
        assert !MatchAt(Cap, file, j - p);
      } else {
        assert dir[p - 1] == s[p - 1];
      }
    }
  }

  lemma CapGroupUnderDirectory(dir: string, file: string, i: nat)
    requires MatchAt(Cap, file, i)
    requires MatchAt(Cap, dir + file, |dir| + i)
    ensures GroupAt(Cap, dir + file, |dir| + i) == GroupAt(Cap, file, i)
  {
    var s := dir + file;
    var p := |dir|;
    var e := DigitRunEnd(file, i + 3);
    assert s[p + i + 3..p + e] == file[i + 3..e];
    assert p + e == |s| || s[p + e] == file[e];
    DigitRunEndUnique(s, p + i + 3, p + e);
  }

  // ----- sort key -----

  /** End of the maximal run of ASCII letters starting at `j`. */
  function LetterRunEnd(s: string, j: nat): (e: nat)
    requires j <= |s|
    ensures j <= e <= |s|
    ensures AllLetters(s[j..e])
    ensures e == |s| || !IsLetter(s[e])
    decreases |s| - j
  {
    if j < |s| && IsLetter(s[j]) then
      var e := LetterRunEnd(s, j + 1);
      assert s[j..e] == [s[j]] + s[j + 1..e];
      e
    else j
  }

  /** Group 1 of `re.match(r'([a-zA-Z]+)_', name)`, or "" when it does not
      match: the letters at the start of the name, when an underscore follows
      them directly. */
  function TypeTag(name: string): (tag: string)
    ensures tag != "" ==> AllLetters(tag) && |tag| < |name| && name[..|tag|] == tag && name[|tag|] == '_'
    ensures forall k :: 0 < k < |name| && AllLetters(name[..k]) && name[k] == '_' ==> tag == name[..k]
  {
    var e := LetterRunEnd(name, 0);
    assert name[0..e] == name[..e];
    assert forall k :: 0 < k < |name| && AllLetters(name[..k]) && name[k] == '_' ==> k == e;
    if 0 < e < |name| && name[e] == '_' then name[..e] else ""
  }

  /** `type_order_map.get(type_str, 99)`. */
  function TypeOrder(tag: string): (order: int)
    ensures order == 0 <==> tag == "rand"
    ensures order == 1 <==> tag == "stress"
    ensures order == 2 <==> tag == "cnn"
    ensures order !in {0, 1, 2} ==> order == 99
  {
    if tag == "rand" then 0
    else if tag == "stress" then 1
    else if tag == "cnn" then 2
    else 99
  }

  /** A numeric index or `float('inf')`. */
  datatype Index = Finite(n: nat) | Infinite

  /** The key `(type_order, index)`. */
  datatype SortKey = SortKey(typeOrder: int, index: Index)

  /** `extract_type_index`. */
  function ExtractTypeIndex(name: string): (key: SortKey)
    ensures key.typeOrder == TypeOrder(TypeTag(name))
    ensures key.index.Infinite? <==> NoMatch(Underscore, name)
    ensures forall i :: FirstMatchAt(Underscore, name, i) ==> key.index == Finite(DigitsValue(GroupAt(Underscore, name, i)))
  {
    var index := match SearchNumber(Underscore, name)
      case None => Infinite
      case Some(v) => Finite(v);
    SortKey(TypeOrder(TypeTag(name)), index)
  }

  /** Python's `<` on indices: every integer is below infinity. */
  predicate IndexLess(a: Index, b: Index)
  {
    match (a, b)
    case (Finite(x), Finite(y)) => x < y
    case (Finite(_), Infinite) => true
    case (Infinite, _) => false
  }

  /** Python's `<` on `(type_order, index)` tuples. */
  predicate KeyLess(a: SortKey, b: SortKey)
  {
    a.typeOrder < b.typeOrder || (a.typeOrder == b.typeOrder && IndexLess(a.index, b.index))
  }

  /** Tuple `<` is a strict total order. */
  lemma KeyLessTotal(a: SortKey, b: SortKey)
    ensures !KeyLess(a, a)
    ensures KeyLess(a, b) ==> !KeyLess(b, a)
    ensures a == b || KeyLess(a, b) || KeyLess(b, a)
  {
  }

  /** `mm_small.cap5.csv` has type 99 (`mm` is not ranked) and no `_<digit>`. */
  lemma UnrankedNameExample()
    ensures ExtractTypeIndex("mm_small.cap5.csv") == SortKey(99, Infinite)
  {
    var s := "mm_small.cap5.csv";
    assert AllLetters(s[..2]) && s[2] == '_';
    assert TypeTag(s) == "mm";
    forall i | 0 <= i < |s| ensures !MatchAt(Underscore, s, i) {
      assert s[i..i + 1] == [s[i]];
    }
  }
}

=== FILE: fileorder.dfy ===
/** The order in which the runner visits workload files: `list.sort` with a
    key, which is a stable sort. */
module FileOrder {
  import opened FileNames

  /** No element is followed by one with a smaller key. */
  predicate SortedBy<T>(xs: seq<T>, key: T -> SortKey)
  {
    forall i, j :: 0 <= i < j < |xs| ==> !KeyLess(key(xs[j]), key(xs[i]))
  }

  /** The elements with key `k`, in their order in `xs`. */
  function WithKey<T>(xs: seq<T>, key: T -> SortKey, k: SortKey): seq<T>
    decreases |xs|
  {
    if xs == [] then []
    else WithKey(xs[..|xs| - 1], key, k) + (if key(xs[|xs| - 1]) == k then [xs[|xs| - 1]] else [])
  }

  /** Insert `x` after every element whose key is not above its own. */
  function InsertByKey<T>(x: T, xs: seq<T>, key: T -> SortKey): (r: seq<T>)
    requires SortedBy(xs, key)
    ensures |r| == |xs| + 1
    ensures multiset(r) == multiset(xs) + multiset{x}
    ensures SortedBy(r, key)
    decreases |xs|
  {
    if xs == [] || !KeyLess(key(x), key(xs[|xs| - 1])) then
      xs + [x]
    else
      var init, last := xs[..|xs| - 1], xs[|xs| - 1];
      assert xs == init + [last];
      var r' := InsertByKey(x, init, key);
      InsertedBelowLast(x, xs, key, r');
      SortedByAppend(r', last, key);
      r' + [last]
  }

  /** Every element of `init + [x]`, in any order, has a key no larger than
      that of `xs`'s last element when `x`'s is smaller. */
  lemma InsertedBelowLast<T>(x: T, xs: seq<T>, key: T -> SortKey, r: seq<T>)
    requires SortedBy(xs, key) && xs != []
    requires KeyLess(key(x), key(xs[|xs| - 1]))
    requires multiset(r) == multiset(xs[..|xs| - 1]) + multiset{x}
    ensures forall i :: 0 <= i < |r| ==> !KeyLess(key(xs[|xs| - 1]), key(r[i]))
  {
    var init, last := xs[..|xs| - 1], xs[|xs| - 1];
    forall i | 0 <= i < |r| ensures !KeyLess(key(last), key(r[i])) {
      assert r[i] in multiset(r);
      if r[i] != x {
        assert r[i] in multiset(init);
        var j :| 0 <= j < |init| && init[j] == r[i];
        assert xs[j] == init[j];
      } else {
        KeyLessTotal(key(x), key(last));
      }
    }
  }

  lemma SortedByAppend<T>(ys: seq<T>, z: T, key: T -> SortKey)
    requires SortedBy(ys, key)
    requires forall i :: 0 <= i < |ys| ==> !KeyLess(key(z), key(ys[i]))
    ensures SortedBy(ys + [z], key)
  {
    var r := ys + [z];
    forall i, j | 0 <= i < j < |r| ensures !KeyLess(key(r[j]), key(r[i])) {
      assert r[i] == ys[i];
    }
  }

  /** `sorted(xs, key=key)`. */
  function SortBy<T>(xs: seq<T>, key: T -> SortKey): (r: seq<T>)
    ensures |r| == |xs|
    ensures multiset(r) == multiset(xs)
    ensures SortedBy(r, key)
    decreases |xs|
  {
    if xs == [] then []
    else
      assert xs == xs[..|xs| - 1] + [xs[|xs| - 1]];
      InsertByKey(xs[|xs| - 1], SortBy(xs[..|xs| - 1], key), key)
  }

  /** Inserting `x` adds it at the end of its own key's elements. */
  lemma {:induction false} WithKeyInsert<T>(x: T, xs: seq<T>, key: T -> SortKey, k: SortKey)
    requires SortedBy(xs, key)
    ensures WithKey(InsertByKey(x, xs, key), key, k) == WithKey(xs, key, k) + (if key(x) == k then [x] else [])
    decreases |xs|
  {
    if xs == [] || !KeyLess(key(x), key(xs[|xs| - 1])) {
      assert InsertByKey(x, xs, key) == xs + [x];
      WithKeyAppend(xs, x, key, k);
    } else {
      var init := xs[..|xs| - 1];
      SortedByPrefix(xs, key);
      WithKeyInsert(x, init, key, k);
      WithKeyInsertBefore(x, xs, key, k);
    }
  }

  /** When `x` goes before the last element, the last element stays last. */
  lemma WithKeyInsertBefore<T>(x: T, xs: seq<T>, key: T -> SortKey, k: SortKey)
    requires SortedBy(xs, key) && xs != [] && KeyLess(key(x), key(xs[|xs| - 1]))
    requires SortedBy(xs[..|xs| - 1], key)
    requires WithKey(InsertByKey(x, xs[..|xs| - 1], key), key, k)
               == WithKey(xs[..|xs| - 1], key, k) + (if key(x) == k then [x] else [])
    ensures WithKey(InsertByKey(x, xs, key), key, k) == WithKey(xs, key, k) + (if key(x) == k then [x] else [])
  {
    var init, last := xs[..|xs| - 1], xs[|xs| - 1];
    var r' := InsertByKey(x, init, key);
    assert InsertByKey(x, xs, key) == r' + [last];
    WithKeyAppend(r', last, key, k);
    assert xs == init + [last];
    WithKeyAppend(init, last, key, k);
    KeyLessTotal(key(x), key(last));
  }

  lemma WithKeyAppend<T>(ys: seq<T>, z: T, key: T -> SortKey, k: SortKey)
    ensures WithKey(ys + [z], key, k) == WithKey(ys, key, k) + (if key(z) == k then [z] else [])
  {
    assert (ys + [z])[..|ys|] == ys;
  }

  /** Sorting keeps the relative order of equal keys. */
  lemma {:induction false} SortByStable<T>(xs: seq<T>, key: T -> SortKey, k: SortKey)
    ensures WithKey(SortBy(xs, key), key, k) == WithKey(xs, key, k)
    decreases |xs|
  {
    if xs != [] {
      var init := xs[..|xs| - 1];
      SortByStable(init, key, k);
      WithKeyInsert(xs[|xs| - 1], SortBy(init, key), key, k);
    }
  }

  lemma {:induction false} WithKeyMember<T>(xs: seq<T>, key: T -> SortKey, k: SortKey, n: nat)
    requires n < |WithKey(xs, key, k)|
    ensures exists i :: 0 <= i < |xs| && key(xs[i]) == k
    decreases |xs|
  {
    var init := xs[..|xs| - 1];
    if key(xs[|xs| - 1]) != k {
      WithKeyMember(init, key, k, n);
      var i :| 0 <= i < |init| && key(init[i]) == k;
      assert xs[i] == init[i];
    }
  }

  lemma WithKeyOfLast<T>(xs: seq<T>, key: T -> SortKey)
    ensures xs != [] ==> WithKey(xs, key, key(xs[|xs| - 1])) != []
  {
  }

  lemma SortedByPrefix<T>(xs: seq<T>, key: T -> SortKey)
    requires SortedBy(xs, key) && xs != []
    ensures SortedBy(xs[..|xs| - 1], key)
    ensures forall i :: 0 <= i < |xs| ==> !KeyLess(key(xs[|xs| - 1]), key(xs[i]))
  {
    var init := xs[..|xs| - 1];
    forall i, j | 0 <= i < j < |init| ensures !KeyLess(key(init[j]), key(init[i])) {
      assert init[i] == xs[i] && init[j] == xs[j];
    }
  }

  /** A sequence sorted by key in which every key's elements appear in the
      same order as in `b` is `b` itself, when `b` is sorted too. */
  lemma {:induction false} SortedStableUnique<T>(a: seq<T>, b: seq<T>, key: T -> SortKey)
    requires SortedBy(a, key) && SortedBy(b, key)
    requires forall k :: WithKey(a, key, k) == WithKey(b, key, k)
    ensures a == b
    decreases |a| + |b|
  {
    if a == [] {
      WithKeyOfLast(b, key);
    } else {
      WithKeyOfLast(a, key);
      assert WithKey(b, key, key(a[|a| - 1])) != [];
      var a', b' := a[..|a| - 1], b[..|b| - 1];
      LastsEqual(a, b, key);
      assert a == a' + [a[|a| - 1]] && b == b' + [a[|a| - 1]];
      PrefixesAgree(a, b, a', b', a[|a| - 1], key);
      SortedByPrefix(a, key);
      SortedByPrefix(b, key);
      SortedStableUnique(a', b', key);
    }
  }

  /** Two key-sorted sequences with the same elements per key end with the
      same element. */
  lemma LastsEqual<T>(a: seq<T>, b: seq<T>, key: T -> SortKey)
    requires SortedBy(a, key) && SortedBy(b, key) && a != [] && b != []
    requires forall k :: WithKey(a, key, k) == WithKey(b, key, k)
    ensures a[|a| - 1] == b[|b| - 1]
  {
    var a', x := a[..|a| - 1], a[|a| - 1];
    var b', y := b[..|b| - 1], b[|b| - 1];
    SortedByPrefix(a, key);
    SortedByPrefix(b, key);
    var ka, kb := key(x), key(y);
    assert WithKey(a, key, ka) == WithKey(a', key, ka) + [x];
    WithKeyMember(b, key, ka, |WithKey(a, key, ka)| - 1);
    assert WithKey(b, key, kb) == WithKey(b', key, kb) + [y];
    WithKeyMember(a, key, kb, |WithKey(b, key, kb)| - 1);
    KeyLessTotal(ka, kb);
    assert ka == kb;
    var w := WithKey(a, key, ka);
    assert w[|w| - 1] == x;
    assert WithKey(b, key, ka)[|w| - 1] == y;
  }

  /** Dropping the common last element keeps the elements per key equal. */
  lemma PrefixesAgree<T>(a: seq<T>, b: seq<T>, a': seq<T>, b': seq<T>, x: T, key: T -> SortKey)
    requires a == a' + [x] && b == b' + [x]
    requires forall k :: WithKey(a, key, k) == WithKey(b, key, k)
    ensures forall k :: WithKey(a', key, k) == WithKey(b', key, k)
  {
    assert a[..|a| - 1] == a' && b[..|b| - 1] == b';
    forall k ensures WithKey(a', key, k) == WithKey(b', key, k) {
      if k == key(x) {
        var wa, wb := WithKey(a, key, k), WithKey(b, key, k);
        assert wa == WithKey(a', key, k) + [x];
        assert wb == WithKey(b', key, k) + [x];
        assert wa[..|wa| - 1] == WithKey(a', key, k);
        assert wb[..|wb| - 1] == WithKey(b', key, k);
      } else {
        assert WithKey(a, key, k) == WithKey(a', key, k) + [] == WithKey(a', key, k);
        assert WithKey(b, key, k) == WithKey(b', key, k) + [] == WithKey(b', key, k);
      }
    }
  }

  /** `SortBy` is the stable sort: any ordering that is sorted by key and
      keeps each key's elements in their original order is `SortBy`'s. */
  lemma SortByIsTheStableSort<T>(xs: seq<T>, key: T -> SortKey, r: seq<T>)
    requires SortedBy(r, key)
    requires forall k :: WithKey(r, key, k) == WithKey(xs, key, k)
    ensures r == SortBy(xs, key)
  {
    forall k ensures WithKey(r, key, k) == WithKey(SortBy(xs, key), key, k) {
      SortByStable(xs, key, k);
    }
    SortedStableUnique(r, SortBy(xs, key), key);
  }
}

=== FILE: generation.dfy ===
/** What every generator does once its rows are built: compute the capacity
    and name the file `prefix.cap<capacity>.csv`. */
module Generation {
  import opened Wrappers
  import opened Workload
  import opened Sweep
  import opened FileNames

  /** The generator's return value `(filename, capacity)` together with the
      rows it writes to that file. */
  datatype Generated = Generated(rows: seq<Row>, filename: string, capacity: nat)

  /** Number of iterations of `range(n)`. */
  function RangeLength(n: int): nat
  {
    if n < 0 then 0 else n
  }

  /** Capacity and file name for the given rows. */
  function Emit(prefix: string, rows: seq<Row>): (g: Generated)
    ensures g.rows == rows
    ensures g.filename == FileName(prefix, g.capacity)
    ensures LifetimesOrdered(rows) ==> IsPeak(rows, g.capacity)
    ensures NonNegativeSizes(rows) ==> g.capacity <= TotalSize(rows)
    ensures NoMatch(Cap, prefix) ==> ParseCapacity(g.filename) == Success(g.capacity)
  {
    var c := Capacity(rows);
    CapacityFacts(prefix, rows);
    Generated(rows, FileName(prefix, c), c)
  }

  lemma CapacityFacts(prefix: string, rows: seq<Row>)
    ensures LifetimesOrdered(rows) ==> IsPeak(rows, Capacity(rows))
    ensures NonNegativeSizes(rows) ==> Capacity(rows) <= TotalSize(rows)
    ensures NoMatch(Cap, prefix) ==> ParseCapacity(FileName(prefix, Capacity(rows))) == Success(Capacity(rows))
  {
    if LifetimesOrdered(rows) { CapacityIsPeak(rows); }
    if NonNegativeSizes(rows) { CapacityAtMostTotalSize(rows); }
    if NoMatch(Cap, prefix) { ParseFileName(prefix, Capacity(rows)); }
  }
}

=== FILE: mm.dfy ===
/** The deterministic workload of `generate_mm_csv`: buffer `i` is live from
    time 0 to `10 * (i + 1)` and holds `4 * (i % 8 + 1)` bytes. */
module MmWorkload {
  import opened Wrappers
  import opened Decimal
  import opened Workload
  import opened Sweep
  import opened FileNames
  import opened Generation

  function MmSpan(i: nat): Span
  {
    Span(0, 10 * (i + 1), 4 * (i % 8 + 1))
  }

  function MmSpans(n: int): (spans: seq<Span>)
    ensures |spans| == RangeLength(n)
    ensures forall i :: 0 <= i < |spans| ==> spans[i] == MmSpan(i)
  {
    seq(RangeLength(n), i requires 0 <= i => MmSpan(i))
  }

  /** `generate_mm_csv(prefix, n_buffers)`. */
  function GenerateMm(prefix: string, nBuffers: int): (g: Generated)
    ensures |g.rows| == RangeLength(nBuffers)
    ensures forall i :: 0 <= i < |g.rows| ==> g.rows[i].id == "b" + NatToString(i)
    ensures forall i :: 0 <= i < |g.rows| ==>
      && g.rows[i].lower == 0
      && g.rows[i].upper == 10 * (i + 1)
      && g.rows[i].size == 4 * (i % 8 + 1)
      && 4 <= g.rows[i].size <= 32 && g.rows[i].size % 4 == 0
    ensures DistinctIds(g.rows)
    ensures WellFormed(g.rows)
    ensures g.capacity == TotalSize(g.rows) == MmTotal(RangeLength(nBuffers))
    ensures g.filename == FileName(prefix, g.capacity)
    ensures NoMatch(Cap, prefix) ==> ParseCapacity(g.filename) == Success(g.capacity)
  {
    var rows := Numbered("b", MmSpans(nBuffers));
    MmRowsFacts(nBuffers);
    MmCapacityIsTotalSize(rows);
    MmTotalSizeClosedForm(RangeLength(nBuffers));
    Emit(prefix, rows)
  }

  lemma MmRowsFacts(nBuffers: int)
    ensures var rows := Numbered("b", MmSpans(nBuffers));
      && DistinctIds(rows)
      && WellFormed(rows)
      && forall i :: 0 <= i < |rows| ==>
        && rows[i].lower == 0
        && rows[i].upper == 10 * (i + 1)
        && rows[i].size == 4 * (i % 8 + 1)
        && 4 <= rows[i].size <= 32 && rows[i].size % 4 == 0
  {
    var spans := MmSpans(nBuffers);
    var rows := Numbered("b", spans);
    NumberedDistinct("b", spans);
    forall i | 0 <= i < |rows|
      ensures rows[i].lower == 0 && rows[i].upper == 10 * (i + 1)
      ensures rows[i].size == 4 * (i % 8 + 1)
      ensures 4 <= rows[i].size <= 32 && rows[i].size % 4 == 0
    {
      assert SpanOf(rows[i]) == MmSpan(i);
      MmSpanFacts(i);
    }
  }

  lemma MmSpanFacts(i: nat)
    ensures 4 <= MmSpan(i).size <= 32 && MmSpan(i).size % 4 == 0
  {
    var r := i % 8;
    assert 0 <= r < 8;
    assert MmSpan(i).size == 4 * (r + 1);
  }

  /** Every buffer of the workload starts at time 0, so all are live
      together and the capacity is the sum of all sizes. */
  lemma MmCapacityIsTotalSize(rows: seq<Row>)
    requires forall i :: 0 <= i < |rows| ==> rows[i].lower == 0 < rows[i].upper && rows[i].size >= 0
    ensures Capacity(rows) == TotalSize(rows)
  {
    assert NonNegativeSizes(rows);
    assert LifetimesOrdered(rows);
    CapacityAtMostTotalSize(rows);
    if rows != [] {
      LiveAllIsTotal(rows, 0);
      CapacityIsPeak(rows);
    } else {
      assert TotalSize(rows) == 0;
    }
  }

  /** The sizes cycle through 4, 8, ..., 32: every full cycle of eight
      buffers adds 144 bytes and a partial cycle of `r` buffers adds
      `2 r (r + 1)`. */
  function MmTotal(n: nat): nat
  {
    144 * (n / 8) + 2 * (n % 8) * (n % 8 + 1)
  }

  lemma MmTotalStep(n: nat)
    ensures MmTotal(n + 1) == MmTotal(n) + 4 * (n % 8 + 1)
  {
    var q, r := n / 8, n % 8;
    assert n == 8 * q + r;
    if r < 7 {
      assert (n + 1) / 8 == q && (n + 1) % 8 == r + 1;
      assert 2 * (r + 1) * (r + 2) == 2 * r * (r + 1) + 4 * (r + 1);
    } else {
      assert (n + 1) / 8 == q + 1 && (n + 1) % 8 == 0;
    }
  }

  /** The capacity `generate_mm_csv` writes into the file name, in closed
      form. */
  lemma {:induction false} MmCapacityClosedForm(n: nat)
    ensures Capacity(Numbered("b", MmSpans(n))) == MmTotal(n)
  {
    var rows := Numbered("b", MmSpans(n));
    MmRowsFacts(n);
    MmCapacityIsTotalSize(rows);
    MmTotalSizeClosedForm(n);
  }

  lemma {:induction false} MmTotalSizeClosedForm(n: nat)
    ensures TotalSize(Numbered("b", MmSpans(n))) == MmTotal(n)
  {
    if n > 0 {
      var rows := Numbered("b", MmSpans(n));
      var init := Numbered("b", MmSpans(n - 1));
      assert rows[..n - 1] == init;
      assert SpanOf(rows[n - 1]) == MmSpan(n - 1);
      MmTotalSizeClosedForm(n - 1);
      MmTotalStep(n - 1);
    }
  }

  /** The two workloads the script writes when run directly. */
  lemma MmScriptWorkloads()
    ensures GenerateMm("mm_small", 100).capacity == 1768
    ensures GenerateMm("mm_medium", 500).capacity == 8968
  {
    assert MmTotal(100) == 1768;
    assert MmTotal(500) == 8968;
  }
}

=== FILE: sweep.dfy ===
/** The peak-capacity sweep `compute_capacity`. Each row yields an allocation
    event `(lower, size)` and a deallocation event `(upper, -size)`; the events
    are sorted as integer pairs and the largest running total (at least 0) is
    the capacity. Both generator scripts carry the same code, so one model
    serves both. */
module Sweep {
  import opened Workload

  /** At `time` the running total changes by `delta`. */
  datatype Event = Event(time: int, delta: int)

  function Alloc(r: Row): Event { Event(r.lower, r.size) }

  function Dealloc(r: Row): Event { Event(r.upper, -r.size) }

  /** The event list of the first loop, in the order it is appended. */
  function Events(rows: seq<Row>): (es: seq<Event>)
    ensures |es| == 2 * |rows|
    decreases |rows|
  {
    if rows == [] then []
    else Events(rows[..|rows| - 1]) + [Alloc(rows[|rows| - 1]), Dealloc(rows[|rows| - 1])]
  }

  /** Row `i` contributes events `2i` (allocation) and `2i+1` (deallocation). */
  lemma {:induction false} EventsLayout(rows: seq<Row>)
    ensures forall i :: 0 <= i < |rows| ==>
      Events(rows)[2 * i] == Alloc(rows[i]) && Events(rows)[2 * i + 1] == Dealloc(rows[i])
    decreases |rows|
  {
    if rows != [] {
      var init := rows[..|rows| - 1];
      EventsLayout(init);
      forall i | 0 <= i < |rows|
        ensures Events(rows)[2 * i] == Alloc(rows[i]) && Events(rows)[2 * i + 1] == Dealloc(rows[i])
      {
        if i < |init| { assert rows[i] == init[i]; }
      }
    }
  }

  /** Python's `<=` on `(time, delta)` tuples: by time, then by delta, so at
      one instant every deallocation comes before every allocation. */
  predicate EventLe(a: Event, b: Event)
  {
    a.time < b.time || (a.time == b.time && a.delta <= b.delta)
  }

  predicate Sorted(es: seq<Event>)
  {
    forall i, j :: 0 <= i < j < |es| ==> EventLe(es[i], es[j])
  }

  function Insert(e: Event, es: seq<Event>): (r: seq<Event>)
    requires Sorted(es)
    ensures Sorted(r)
    ensures multiset(r) == multiset(es) + multiset{e}
    decreases |es|
  {
    if es == [] || EventLe(e, es[0]) then
      SortedCons(e, es);
      [e] + es
    else
      var tail := Insert(e, es[1..]);
      SortedTail(es);
      HeadBelowInserted(e, es, tail);
      SortedCons(es[0], tail);
      [es[0]] + tail
  }

  /** An event no later than the head of a sorted sequence can go in front. */
  lemma SortedCons(x: Event, es: seq<Event>)
    requires Sorted(es)
    requires es != [] ==> EventLe(x, es[0])
    ensures Sorted([x] + es)
  {
    var r := [x] + es;
    forall i, j | 0 <= i < j < |r| ensures EventLe(r[i], r[j]) {
      if i == 0 {
        assert r[j] == es[j - 1];
        if j > 1 { assert EventLe(es[0], es[j - 1]); }
      } else {
        assert r[i] == es[i - 1] && r[j] == es[j - 1];
      }
    }
  }

  /** Inserting behind the head keeps the head below every element. */
  lemma HeadBelowInserted(e: Event, es: seq<Event>, tail: seq<Event>)
    requires Sorted(es) && es != [] && !EventLe(e, es[0])
    requires multiset(tail) == multiset(es[1..]) + multiset{e}
    ensures tail != [] ==> EventLe(es[0], tail[0])
    ensures multiset([es[0]] + tail) == multiset(es) + multiset{e}
  {
    assert es == [es[0]] + es[1..];
    if tail != [] {
      assert tail[0] in multiset(tail);
      if tail[0] != e {
        assert tail[0] in multiset(es[1..]);
        var k :| 0 <= k < |es[1..]| && es[1..][k] == tail[0];
        assert es[k + 1] == tail[0];
      }
    }
  }

  /** `events.sort()`: the sorted permutation of the events. */
  function SortEvents(es: seq<Event>): (r: seq<Event>)
    ensures Sorted(r)
    ensures multiset(r) == multiset(es)
    decreases |es|
  {
    if es == [] then []
    else
      assert es == [es[0]] + es[1..];
      Insert(es[0], SortEvents(es[1..]))
  }

  /** A sorted permutation is unique: whatever algorithm sorts the events,
      the sweep sees the same sequence. */
  lemma {:induction false} SortedPermutationUnique(a: seq<Event>, b: seq<Event>)
    requires Sorted(a) && Sorted(b)
    requires multiset(a) == multiset(b)
    ensures a == b
    decreases |a|
  {
    if a == [] || b == [] {
      assert |a| == |multiset(a)| == |multiset(b)| == |b|;
    } else {
      SortedHeadsEqual(a, b);
      SortedTail(a);
      SortedTail(b);
      SortedPermutationUnique(a[1..], b[1..]);
      assert a == [a[0]] + a[1..];
      assert b == [b[0]] + b[1..];
    }
  }

  /** Two sorted permutations start with the same event, and their tails are
      permutations of each other. */
  lemma SortedHeadsEqual(a: seq<Event>, b: seq<Event>)
    requires Sorted(a) && Sorted(b) && a != [] && b != []
    requires multiset(a) == multiset(b)
    ensures a[0] == b[0]
    ensures multiset(a[1..]) == multiset(b[1..])
  {
    assert a[0] in multiset(b);
    var j :| 0 <= j < |b| && b[j] == a[0];
    assert EventLe(b[0], a[0]) by { if j > 0 { assert EventLe(b[0], b[j]); } }
    assert b[0] in multiset(a);
    var i :| 0 <= i < |a| && a[i] == b[0];
    assert EventLe(a[0], b[0]) by { if i > 0 { assert EventLe(a[0], a[i]); } }
    assert a == [a[0]] + a[1..];
    assert b == [b[0]] + b[1..];
    assert multiset(a) == multiset{a[0]} + multiset(a[1..]);
    assert multiset(b) == multiset{b[0]} + multiset(b[1..]);
    assert a[0] == b[0];
    assert multiset(a[1..]) == multiset(a) - multiset{a[0]};
    assert multiset(b[1..]) == multiset(b) - multiset{b[0]};
  }

  lemma SortedTail(a: seq<Event>)
    requires Sorted(a) && a != []
    ensures Sorted(a[1..])
  {
    forall i, j | 0 <= i < j < |a[1..]| ensures EventLe(a[1..][i], a[1..][j]) {
      assert EventLe(a[i + 1], a[j + 1]);
    }
  }

  /** What a running sum adds up: the deltas, the deltas of the events at or
      before `t`, or only the positive deltas. */
  datatype Measure = Delta | UpTo(t: int) | Gains

  function Weight(m: Measure, e: Event): int
  {
    match m
    case Delta => e.delta
    case UpTo(t) => if e.time <= t then e.delta else 0
    case Gains => if e.delta > 0 then e.delta else 0
  }

  function SumOf(m: Measure, es: seq<Event>): int
    decreases |es|
  {
    if es == [] then 0 else SumOf(m, es[..|es| - 1]) + Weight(m, es[|es| - 1])
  }

  lemma {:induction false} SumOfConcat(m: Measure, a: seq<Event>, b: seq<Event>)
    ensures SumOf(m, a + b) == SumOf(m, a) + SumOf(m, b)
    decreases |b|
  {
    if b == [] {
      assert a + b == a;
    } else {
      var init := b[..|b| - 1];
      assert (a + b)[..|a + b| - 1] == a + init;
      SumOfConcat(m, a, init);
    }
  }

  lemma SumOfPair(m: Measure, a: Event, b: Event)
    ensures SumOf(m, [a, b]) == Weight(m, a) + Weight(m, b)
  {
    assert [a, b][..1] == [a];
    assert [a][..0] == [];
    assert SumOf(m, [a]) == Weight(m, a);
  }

  /** Removing the element at `j` removes one copy of it. */
  lemma RemoveAt<T>(b: seq<T>, j: int)
    requires 0 <= j < |b|
    ensures multiset(b[..j] + b[j + 1..]) == multiset(b) - multiset{b[j]}
  {
    assert b == b[..j] + [b[j]] + b[j + 1..];
    assert multiset(b) == multiset(b[..j]) + multiset{b[j]} + multiset(b[j + 1..]);
  }

  lemma SumOfRemoveAt(m: Measure, b: seq<Event>, j: int)
    requires 0 <= j < |b|
    ensures SumOf(m, b) == SumOf(m, b[..j] + b[j + 1..]) + Weight(m, b[j])
  {
    assert b == (b[..j] + [b[j]]) + b[j + 1..];
    SumOfConcat(m, b[..j] + [b[j]], b[j + 1..]);
    SumOfConcat(m, b[..j], b[j + 1..]);
    assert (b[..j] + [b[j]])[..j] == b[..j];
  }

  lemma {:induction false} SumOfPermutation(m: Measure, a: seq<Event>, b: seq<Event>)
    requires multiset(a) == multiset(b)
    ensures SumOf(m, a) == SumOf(m, b)
    decreases |a|
  {
    if a == [] {
      assert |multiset(b)| == 0;
    } else {
      var n := |a| - 1;
      assert a[n] in multiset(a);
      var j :| 0 <= j < |b| && b[j] == a[n];
      PermutationWithoutLast(a, b, j);
      SumOfPermutation(m, a[..n], b[..j] + b[j + 1..]);
      SumOfRemoveAt(m, b, j);
    }
  }

  /** Taking the last element of `a` out of `a`, and the same element out of
      `b`, leaves two permutations of each other. */
  lemma PermutationWithoutLast<T>(a: seq<T>, b: seq<T>, j: int)
    requires multiset(a) == multiset(b) && a != []
    requires 0 <= j < |b| && b[j] == a[|a| - 1]
    ensures multiset(a[..|a| - 1]) == multiset(b[..j] + b[j + 1..])
  {
    var n := |a| - 1;
    RemoveAt(a, n);
    RemoveAt(b, j);
    assert a[..n] + a[n + 1..] == a[..n];
  }

  function Max(a: int, b: int): int { if a < b then b else a }

  /** The second loop: the largest running total, starting from 0. */
  function MaxPrefix(es: seq<Event>): (m: int)
    ensures forall k :: 0 <= k <= |es| ==> SumOf(Delta, es[..k]) <= m
    ensures exists k :: 0 <= k <= |es| && SumOf(Delta, es[..k]) == m
    decreases |es|
  {
    if es == [] then
      assert SumOf(Delta, es[..0]) == 0;
      0
    else
      var init := es[..|es| - 1];
      var m := MaxPrefix(init);
      assert forall k :: 0 <= k <= |init| ==> es[..k] == init[..k];
      assert es[..|es|] == es;
      Max(m, SumOf(Delta, es))
  }

  /** `compute_capacity(rows)`. */
  function Capacity(rows: seq<Row>): (c: nat)
    ensures rows == [] ==> c == 0
  {
    var es := SortEvents(Events(rows));
    assert SumOf(Delta, es[..0]) == 0;
    MaxPrefix(es)
  }

  /** The imperative sweep, loop for loop. */
  method ComputeCapacity(rows: seq<Row>) returns (maxUsage: int)
    ensures maxUsage == Capacity(rows)
    ensures LifetimesOrdered(rows) ==> IsPeak(rows, maxUsage)
    ensures NonNegativeSizes(rows) ==> 0 <= maxUsage <= TotalSize(rows)
  {
    var events := SortEvents(Events(rows));
    maxUsage := 0;
    var currentUsage := 0;
    var i := 0;
    while i < |events|
      invariant 0 <= i <= |events|
      invariant currentUsage == SumOf(Delta, events[..i])
      invariant maxUsage == MaxPrefix(events[..i])
    {
      MaxPrefixStep(events, i);
      currentUsage := currentUsage + events[i].delta;
      if currentUsage > maxUsage {
        maxUsage := currentUsage;
      }
      i := i + 1;
    }
    assert events[..i] == events;
    CapacityBounds(rows);
  }

  /** One more event adds its delta to the running total, and the maximum
      takes the new total into account. */
  lemma MaxPrefixStep(es: seq<Event>, i: int)
    requires 0 <= i < |es|
    ensures SumOf(Delta, es[..i + 1]) == SumOf(Delta, es[..i]) + es[i].delta
    ensures MaxPrefix(es[..i + 1]) == Max(MaxPrefix(es[..i]), SumOf(Delta, es[..i + 1]))
  {
    assert es[..i + 1][..i] == es[..i];
  }

  lemma CapacityBounds(rows: seq<Row>)
    ensures LifetimesOrdered(rows) ==> IsPeak(rows, Capacity(rows))
    ensures NonNegativeSizes(rows) ==> 0 <= Capacity(rows) <= TotalSize(rows)
  {
    if LifetimesOrdered(rows) {
      CapacityIsPeak(rows);
    }
    if NonNegativeSizes(rows) {
      CapacityAtMostTotalSize(rows);
    }
  }

  // ----- the peak theorem -----

  /** Per buffer the two events add `size` to every time in `[lower, upper)`. */
  lemma {:induction false} LiveAsEvents(rows: seq<Row>, t: int)
    requires LifetimesOrdered(rows)
    ensures Live(rows, t) == SumOf(UpTo(t), Events(rows))
    decreases |rows|
  {
    if rows != [] {
      var init := rows[..|rows| - 1];
      var r := rows[|rows| - 1];
      assert LifetimesOrdered(init) by {
        forall k | 0 <= k < |init| ensures init[k].lower <= init[k].upper { assert init[k] == rows[k]; }
      }
      LiveAsEvents(init, t);
      var pair := [Alloc(r), Dealloc(r)];
      assert Events(rows) == Events(init) + pair;
      SumOfConcat(UpTo(t), Events(init), pair);
      SumOfPair(UpTo(t), Alloc(r), Dealloc(r));
      assert r.lower <= r.upper;
    }
  }

  lemma {:induction false} SumUpToAllBefore(es: seq<Event>, t: int)
    requires forall i :: 0 <= i < |es| ==> es[i].time <= t
    ensures SumOf(UpTo(t), es) == SumOf(Delta, es)
    decreases |es|
  {
    if es != [] {
      SumUpToAllBefore(es[..|es| - 1], t);
    }
  }

  lemma {:induction false} SumUpToNoneBefore(es: seq<Event>, t: int)
    requires forall i :: 0 <= i < |es| ==> es[i].time > t
    ensures SumOf(UpTo(t), es) == 0
    decreases |es|
  {
    if es != [] {
      SumUpToNoneBefore(es[..|es| - 1], t);
    }
  }

  lemma {:induction false} SumUpToOnlyGains(es: seq<Event>, t: int)
    requires forall i :: 0 <= i < |es| ==> es[i].time > t || es[i].delta >= 0
    ensures SumOf(UpTo(t), es) >= 0
    decreases |es|
  {
    if es != [] {
      SumUpToOnlyGains(es[..|es| - 1], t);
    }
  }

  /** In sorted order the events at or before `t` form a prefix, so the total
      at `t` is one of the running totals. */
  lemma {:induction false} UpToIsPrefixSum(es: seq<Event>, t: int)
    requires Sorted(es)
    ensures exists k :: 0 <= k <= |es| && SumOf(Delta, es[..k]) == SumOf(UpTo(t), es)
    decreases |es|
  {
    if es == [] {
      assert es[..0] == es;
    } else {
      var n := |es|;
      var init := es[..n - 1];
      if es[n - 1].time <= t {
        assert forall i :: 0 <= i < n ==> es[i].time <= t by {
          forall i | 0 <= i < n ensures es[i].time <= t {
            if i < n - 1 { assert EventLe(es[i], es[n - 1]); }
          }
        }
        SumUpToAllBefore(es, t);
        assert es[..n] == es;
      } else {
        assert Sorted(init);
        UpToIsPrefixSum(init, t);
        var k :| 0 <= k <= |init| && SumOf(Delta, init[..k]) == SumOf(UpTo(t), init);
        assert init[..k] == es[..k];
      }
    }
  }

  /** Every running total is at most 0 or at most the total at some time:
      within one instant the deallocations come first, so a running total that
      ends on an allocation already includes every deallocation at that time. */
  lemma {:induction false} PrefixSumBounded(es: seq<Event>, k: int)
    requires Sorted(es)
    requires 0 <= k <= |es|
    ensures SumOf(Delta, es[..k]) <= 0 || exists t :: SumOf(Delta, es[..k]) <= SumOf(UpTo(t), es)
    decreases k
  {
    if k > 0 {
      var last := es[k - 1];
      assert es[..k][..k - 1] == es[..k - 1];
      if last.delta < 0 {
        PrefixSumBounded(es, k - 1);
      } else {
        var t := last.time;
        assert es == es[..k] + es[k..];
        SumOfConcat(UpTo(t), es[..k], es[k..]);
        assert forall i :: 0 <= i < k ==> es[..k][i].time <= t by {
          forall i | 0 <= i < k ensures es[..k][i].time <= t {
            if i < k - 1 { assert EventLe(es[i], es[k - 1]); }
          }
        }
        SumUpToAllBefore(es[..k], t);
        assert forall i :: 0 <= i < |es[k..]| ==> es[k..][i].time > t || es[k..][i].delta >= 0 by {
          forall i | 0 <= i < |es[k..]| ensures es[k..][i].time > t || es[k..][i].delta >= 0 {
            assert EventLe(es[k - 1], es[k + i]);
          }
        }
        SumUpToOnlyGains(es[k..], t);
      }
    }
  }

  /** The capacity is the maximum over all times `t` of the total size of the
      buffers with `lower <= t < upper`: touching intervals do not overlap. */
  lemma CapacityIsPeak(rows: seq<Row>)
    requires LifetimesOrdered(rows)
    ensures IsPeak(rows, Capacity(rows))
  {
    var evs := Events(rows);
    var es := SortEvents(evs);
    var c := Capacity(rows);
    forall t ensures Live(rows, t) <= c {
      LiveAsEvents(rows, t);
      SumOfPermutation(UpTo(t), evs, es);
      UpToIsPrefixSum(es, t);
    }
    var k :| 0 <= k <= |es| && SumOf(Delta, es[..k]) == c;
    PrefixSumBounded(es, k);
    if c > 0 {
      var t :| c <= SumOf(UpTo(t), es);
      LiveAsEvents(rows, t);
      SumOfPermutation(UpTo(t), evs, es);
      assert Live(rows, t) == c;
    } else if es == [] {
      assert |evs| == |multiset(evs)| == |multiset(es)| == 0;
      assert rows == [];
      assert Live(rows, 0) == c;
    } else {
      var t := es[0].time - 1;
      assert forall i :: 0 <= i < |es| ==> es[i].time > t by {
        forall i | 0 <= i < |es| ensures es[i].time > t {
          if i > 0 { assert EventLe(es[0], es[i]); }
        }
      }
      SumUpToNoneBefore(es, t);
      LiveAsEvents(rows, t);
      SumOfPermutation(UpTo(t), evs, es);
      assert Live(rows, t) == c;
    }
  }

  // ----- bounds -----

  /** With positive sizes and non-empty lifetimes, no buffer is larger than
      the capacity. */
  lemma CapacityCoversEachBuffer(rows: seq<Row>)
    requires WellFormed(rows)
    ensures forall i :: 0 <= i < |rows| ==> rows[i].size <= Capacity(rows)
  {
    CapacityIsPeak(rows);
    forall i | 0 <= i < |rows| ensures rows[i].size <= Capacity(rows) {
      LiveAtLeastOne(rows, i, rows[i].lower);
    }
  }

  lemma {:induction false} DeltaAtMostGains(es: seq<Event>)
    ensures SumOf(Delta, es) <= SumOf(Gains, es)
    ensures SumOf(Gains, es) >= 0
    decreases |es|
  {
    if es != [] {
      DeltaAtMostGains(es[..|es| - 1]);
    }
  }

  lemma {:induction false} GainsOfEvents(rows: seq<Row>)
    requires NonNegativeSizes(rows)
    ensures SumOf(Gains, Events(rows)) == TotalSize(rows)
    decreases |rows|
  {
    if rows != [] {
      var init := rows[..|rows| - 1];
      var r := rows[|rows| - 1];
      assert NonNegativeSizes(init) by {
        forall k | 0 <= k < |init| ensures init[k].size >= 0 { assert init[k] == rows[k]; }
      }
      GainsOfEvents(init);
      var pair := [Alloc(r), Dealloc(r)];
      assert Events(rows) == Events(init) + pair;
      SumOfConcat(Gains, Events(init), pair);
      SumOfPair(Gains, Alloc(r), Dealloc(r));
    }
  }

  /** Every running total is bounded by the sum of the positive deltas, that
      is by the sum of all sizes. */
  lemma CapacityAtMostTotalSize(rows: seq<Row>)
    requires NonNegativeSizes(rows)
    ensures Capacity(rows) <= TotalSize(rows)
  {
    var evs := Events(rows);
    var es := SortEvents(evs);
    var k :| 0 <= k <= |es| && SumOf(Delta, es[..k]) == Capacity(rows);
    assert es == es[..k] + es[k..];
    SumOfConcat(Gains, es[..k], es[k..]);
    DeltaAtMostGains(es[..k]);
    DeltaAtMostGains(es[k..]);
    SumOfPermutation(Gains, evs, es);
    GainsOfEvents(rows);
  }

  lemma {:induction false} DeltasCancel(rows: seq<Row>)
    ensures SumOf(Delta, Events(rows)) == 0
    decreases |rows|
  {
    if rows != [] {
      var init := rows[..|rows| - 1];
      var r := rows[|rows| - 1];
      DeltasCancel(init);
      var pair := [Alloc(r), Dealloc(r)];
      assert Events(rows) == Events(init) + pair;
      SumOfConcat(Delta, Events(init), pair);
      SumOfPair(Delta, Alloc(r), Dealloc(r));
    }
  }

  /** After the last event the running total is back at 0. */
  lemma FinalUsageIsZero(rows: seq<Row>)
    ensures SumOf(Delta, SortEvents(Events(rows))) == 0
  {
    DeltasCancel(rows);
    SumOfPermutation(Delta, Events(rows), SortEvents(Events(rows)));
  }

  // ----- row order -----

  lemma {:induction false} EventsConcat(a: seq<Row>, b: seq<Row>)
    ensures Events(a + b) == Events(a) + Events(b)
    decreases |b|
  {
    if b == [] {
      assert a + b == a;
    } else {
      var init := b[..|b| - 1];
      assert (a + b)[..|a + b| - 1] == a + init;
      EventsConcat(a, init);
    }
  }

  lemma MultisetSplit<T>(u: seq<T>, v: seq<T>, w: seq<T>)
    ensures multiset(u + v + w) == multiset(u + w) + multiset(v)
  {
  }

  lemma SplitAt<T>(b: seq<T>, j: int)
    requires 0 <= j < |b|
    ensures b == (b[..j] + [b[j]]) + b[j + 1..]
  {
  }

  lemma EventsRemoveAt(b: seq<Row>, j: int)
    requires 0 <= j < |b|
    ensures multiset(Events(b)) == multiset(Events(b[..j] + b[j + 1..])) + multiset(Events([b[j]]))
  {
    var p, x, q := b[..j], [b[j]], b[j + 1..];
    SplitAt(b, j);
    EventsConcat(p + x, q);
    EventsConcat(p, x);
    EventsConcat(p, q);
    MultisetSplit(Events(p), Events(x), Events(q));
  }

  lemma {:induction false} EventsPermutation(a: seq<Row>, b: seq<Row>)
    requires multiset(a) == multiset(b)
    ensures multiset(Events(a)) == multiset(Events(b))
    decreases |a|
  {
    if a == [] {
      assert |multiset(b)| == 0;
    } else {
      var n := |a| - 1;
      assert a[n] in multiset(a);
      var j :| 0 <= j < |b| && b[j] == a[n];
      RemoveAt(a, n);
      RemoveAt(b, j);
      assert a[..n] + a[n + 1..] == a[..n];
      EventsPermutation(a[..n], b[..j] + b[j + 1..]);
      EventsRemoveAt(a, n);
      EventsRemoveAt(b, j);
    }
  }

  /** The capacity does not depend on the order of the rows. */
  lemma CapacityPermutationInvariant(a: seq<Row>, b: seq<Row>)
    requires multiset(a) == multiset(b)
    ensures Capacity(a) == Capacity(b)
  {
    EventsPermutation(a, b);
    SortedPermutationUnique(SortEvents(Events(a)), SortEvents(Events(b)));
  }

  // ----- two buffers -----

  lemma LiveOfTwo(a: Row, b: Row, t: int)
    ensures Live([a, b], t) == (if LiveAt(a, t) then a.size else 0) + (if LiveAt(b, t) then b.size else 0)
  {
    assert [a, b][..1] == [a];
    assert [a][..0] == [];
    assert Live([a], t) == Live([], t) + (if LiveAt(a, t) then a.size else 0);
  }

  /** Two buffers need the sum of their sizes when their lifetimes intersect
      and the larger size otherwise; touching lifetimes do not intersect. */
  lemma TwoBuffers(a: Row, b: Row)
    requires WellFormedRow(a) && WellFormedRow(b)
    ensures Capacity([a, b]) ==
      if a.lower < b.upper && b.lower < a.upper then a.size + b.size
      else Max(a.size, b.size)
  {
    var rows := [a, b];
    var c := Capacity(rows);
    CapacityIsPeak(rows);
    var t :| Live(rows, t) == c;
    LiveOfTwo(a, b, t);
    LiveOfTwo(a, b, a.lower);
    LiveOfTwo(a, b, b.lower);
  }

  // ----- worked examples -----

  /** `[0,5)` of size 10 and `[5,10)` of size 20 only touch: capacity 20. */
  lemma TouchingIntervalsExample()
    ensures Capacity([Row("a", 0, 5, 10), Row("b", 5, 10, 20)]) == 20
  {
    TwoBuffers(Row("a", 0, 5, 10), Row("b", 5, 10, 20));
  }

  /** `[0,10)` of size 4 and `[5,15)` of size 8 overlap on `[5,10)`: capacity 12. */
  lemma OverlappingIntervalsExample()
    ensures Capacity([Row("a", 0, 10, 4), Row("b", 5, 15, 8)]) == 12
  {
    TwoBuffers(Row("a", 0, 10, 4), Row("b", 5, 15, 8));
  }

  /** `[0,10)` of size 10 contains `[2,8)` of size 20: capacity 30. */
  lemma NestedIntervalsExample()
    ensures Capacity([Row("a", 0, 10, 10), Row("b", 2, 8, 20)]) == 30
  {
    TwoBuffers(Row("a", 0, 10, 10), Row("b", 2, 8, 20));
  }
}

=== FILE: testsuite.dfy ===
/** The workload generators of the test suite, with every `random.randint`
    draw passed in as a parameter that lies in the drawn inclusive range. */
module TestSuite {
  import opened Wrappers
  import opened Decimal
  import opened Workload
  import opened Sweep
  import opened FileNames
  import opened Generation

  // ----- random buffers -----

  /** The three draws of one iteration of `generate_random_buffers`:
      `randint(0, lifetime_max // 2)`, `randint(lower + 1, lifetime_max)`,
      `randint(size_min, size_max)`. For a positive divisor Dafny's `/` is
      Python's `//`. */
  predicate RandomDrawOk(d: Span, sizeMin: int, sizeMax: int, lifetimeMax: int)
  {
    && 0 <= d.lower <= lifetimeMax / 2
    && d.lower + 1 <= d.upper <= lifetimeMax
    && sizeMin <= d.size <= sizeMax
  }

  /** `generate_random_buffers(prefix, n_buffers, size_min, size_max, lifetime_max)`. */
  function RandomBuffers(prefix: string, nBuffers: int, sizeMin: int, sizeMax: int, lifetimeMax: int,
                         draws: seq<Span>): (g: Generated)
    requires |draws| == RangeLength(nBuffers)
    requires forall i :: 0 <= i < |draws| ==> RandomDrawOk(draws[i], sizeMin, sizeMax, lifetimeMax)
    ensures |g.rows| == RangeLength(nBuffers)
    ensures forall i :: 0 <= i < |g.rows| ==> g.rows[i].id == "b" + NatToString(i)
    ensures forall i :: 0 <= i < |g.rows| ==>
      && 0 <= g.rows[i].lower <= lifetimeMax / 2
      && g.rows[i].lower + 1 <= g.rows[i].upper <= lifetimeMax
      && sizeMin <= g.rows[i].size <= sizeMax
    ensures DistinctIds(g.rows)
    ensures sizeMin > 0 ==> WellFormed(g.rows)
    ensures IsPeak(g.rows, g.capacity)
    ensures g.filename == FileName(prefix, g.capacity)
    ensures NoMatch(Cap, prefix) ==> ParseCapacity(g.filename) == Success(g.capacity)
  {
    var rows := Numbered("b", draws);
    NumberedDistinct("b", draws);
    RandomRows(draws, sizeMin, sizeMax, lifetimeMax);
    Emit(prefix, rows)
  }

  lemma RandomRows(draws: seq<Span>, sizeMin: int, sizeMax: int, lifetimeMax: int)
    requires forall i :: 0 <= i < |draws| ==> RandomDrawOk(draws[i], sizeMin, sizeMax, lifetimeMax)
    ensures forall i :: 0 <= i < |draws| ==> RandomDrawOk(SpanOf(Numbered("b", draws)[i]), sizeMin, sizeMax, lifetimeMax)
    ensures LifetimesOrdered(Numbered("b", draws))
    ensures sizeMin > 0 ==> WellFormed(Numbered("b", draws))
  {
    var rows := Numbered("b", draws);
    forall i | 0 <= i < |draws| ensures RandomDrawOk(SpanOf(rows[i]), sizeMin, sizeMax, lifetimeMax) {
      assert SpanOf(rows[i]) == draws[i];
    }
  }

  // ----- stress -----

  const MaxLifetime := 100

  /** The draws of one iteration of `generate_stress`: `randint(0, bound)` with
      `bound = int(max_lifetime * max_overlap)`, `randint(lower + 1, 100)`,
      `randint(4, 128)`. */
  predicate StressDrawOk(d: Span, overlapBound: int)
  {
    && 0 <= d.lower <= overlapBound
    && d.lower + 1 <= d.upper <= MaxLifetime
    && 4 <= d.size <= 128
  }

  /** `generate_stress(prefix, n_buffers, max_overlap)`, given
      `overlapBound = int(100 * max_overlap)`. */
  function Stress(prefix: string, nBuffers: int, overlapBound: int, draws: seq<Span>): (g: Generated)
    requires |draws| == RangeLength(nBuffers)
    requires forall i :: 0 <= i < |draws| ==> StressDrawOk(draws[i], overlapBound)
    ensures |g.rows| == RangeLength(nBuffers)
    ensures forall i :: 0 <= i < |g.rows| ==> g.rows[i].id == "s" + NatToString(i)
    ensures forall i :: 0 <= i < |g.rows| ==>
      && 0 <= g.rows[i].lower <= overlapBound
      && g.rows[i].lower + 1 <= g.rows[i].upper <= MaxLifetime
      && 4 <= g.rows[i].size <= 128
    ensures DistinctIds(g.rows)
    ensures WellFormed(g.rows)
    ensures IsPeak(g.rows, g.capacity)
    ensures g.filename == FileName(prefix, g.capacity)
    ensures NoMatch(Cap, prefix) ==> ParseCapacity(g.filename) == Success(g.capacity)
  {
    var rows := Numbered("s", draws);
    NumberedDistinct("s", draws);
    StressRows(draws, overlapBound);
    Emit(prefix, rows)
  }

  lemma StressRows(draws: seq<Span>, overlapBound: int)
    requires forall i :: 0 <= i < |draws| ==> StressDrawOk(draws[i], overlapBound)
    ensures forall i :: 0 <= i < |draws| ==> StressDrawOk(SpanOf(Numbered("s", draws)[i]), overlapBound)
    ensures LifetimesOrdered(Numbered("s", draws))
    ensures WellFormed(Numbered("s", draws))
  {
    var rows := Numbered("s", draws);
    forall i | 0 <= i < |draws| ensures StressDrawOk(SpanOf(rows[i]), overlapBound) {
      assert SpanOf(rows[i]) == draws[i];
    }
  }

  // ----- CNN-like -----

  /** The six draws of one layer of `generate_cnn_like`, in call order:
      feature-map size factor, start jitter, end jitter; workspace size
      factor, start shift, end jitter. */
  datatype CnnDraw = CnnDraw(sizeF: int, startF: int, extraF: int, sizeW: int, shiftW: int, extraW: int)

  predicate CnnDrawOk(d: CnnDraw, jitter: int)
  {
    && 32 <= d.sizeF <= 128
    && 0 <= d.startF <= jitter
    && 0 <= d.extraF <= jitter
    && 64 <= d.sizeW <= 256
    && 0 <= d.shiftW <= 1
    && 0 <= d.extraW <= jitter
  }

  /** Buffer number `k` of the CNN workload is named `f<k>` (feature map,
      even `k`) or `w<k>` (workspace, odd `k`). */
  function CnnTag(k: nat): string
  {
    if k % 2 == 0 then "f" else "w"
  }

  function CnnBufferId(k: nat): string
  {
    CnnTag(k) + NatToString(k)
  }

  /** One layer: the feature map lives at least three steps, the workspace
      starts with it or one step later and lives at least two steps. */
  predicate LayerShape(f: Row, w: Row, jitter: int)
  {
    && f.lower + 3 <= f.upper <= f.lower + 3 + jitter
    && f.lower <= w.lower <= f.lower + 1
    && w.lower + 2 <= w.upper <= w.lower + 2 + jitter
    && f.size >= 32 && w.size >= 64
  }

  /** The time counter `t` when layer `l` begins: it starts at 0 and each
      layer sets it to one past its feature map's start. */
  function Clock(draws: seq<CnnDraw>, l: nat): int
    requires l <= |draws|
  {
    if l == 0 then 0 else Clock(draws, l - 1) + draws[l - 1].startF + 1
  }

  /** A drawn size scaled by the depth of layer `l`. */
  function Scaled(size: int, l: nat): int
  {
    size * (l + 1)
  }

  /** Buffer `k` of the workload: the feature map (even `k`) or the
      workspace (odd `k`) of layer `k / 2`. */
  function CnnRow(draws: seq<CnnDraw>, k: nat): Row
    requires k < 2 * |draws|
  {
    var l := k / 2;
    var d := draws[l];
    var lowerF := Clock(draws, l) + d.startF;
    if k % 2 == 0 then
      Row(CnnBufferId(k), lowerF, lowerF + 3 + d.extraF, Scaled(d.sizeF, l))
    else
      var lowerW := lowerF + d.shiftW;
      Row(CnnBufferId(k), lowerW, lowerW + 2 + d.extraW, Scaled(d.sizeW, l))
  }

  function CnnRows(draws: seq<CnnDraw>): (rows: seq<Row>)
    ensures |rows| == 2 * |draws|
    ensures forall k :: 0 <= k < |rows| ==> rows[k] == CnnRow(draws, k)
  {
    seq(2 * |draws|, k requires 0 <= k < 2 * |draws| => CnnRow(draws, k))
  }

  /** With non-negative start jitter the clock advances at least one step
      per layer. */
  lemma {:induction false} ClockAtLeast(draws: seq<CnnDraw>, jitter: int, l: nat)
    requires l <= |draws|
    requires forall k :: 0 <= k < |draws| ==> CnnDrawOk(draws[k], jitter)
    ensures Clock(draws, l) >= l
  {
    if l > 0 {
      ClockAtLeast(draws, jitter, l - 1);
      assert CnnDrawOk(draws[l - 1], jitter);
    }
  }

  lemma ScaleAtLeast(a: int, l: nat)
    requires a >= 0
    ensures a <= Scaled(a, l) == a * (l + 1)
  {
    assert a * (l + 1) == a * l + a;
  }

  /** Layer `l` has the shape of `LayerShape`: its feature map starts within
      `jitter` steps of the clock, at or after `l`, and both sizes are the
      drawn factors scaled by `l + 1`. */
  lemma CnnLayerShape(draws: seq<CnnDraw>, jitter: int, l: nat)
    requires l < |draws|
    requires forall k :: 0 <= k < |draws| ==> CnnDrawOk(draws[k], jitter)
    ensures LayerShape(CnnRow(draws, 2 * l), CnnRow(draws, 2 * l + 1), jitter)
    ensures Clock(draws, l) <= CnnRow(draws, 2 * l).lower <= Clock(draws, l) + jitter
    ensures CnnRow(draws, 2 * l).lower >= l
    ensures CnnRow(draws, 2 * l).size == draws[l].sizeF * (l + 1)
    ensures CnnRow(draws, 2 * l + 1).size == draws[l].sizeW * (l + 1)
  {
    var d := draws[l];
    assert CnnDrawOk(d, jitter);
    CnnFeatureRow(draws, l);
    CnnWorkspaceRow(draws, l);
    ClockAtLeast(draws, jitter, l);
    ScaleAtLeast(d.sizeF, l);
    ScaleAtLeast(d.sizeW, l);
  }

  /** The feature map of layer `l`, written out. */
  lemma CnnFeatureRow(draws: seq<CnnDraw>, l: nat)
    requires l < |draws|
    ensures CnnRow(draws, 2 * l)
         == Row(CnnBufferId(2 * l), Clock(draws, l) + draws[l].startF,
                Clock(draws, l) + draws[l].startF + 3 + draws[l].extraF, Scaled(draws[l].sizeF, l))
  {
    var k := 2 * l;
    Halves(l);
    assert k / 2 == l && k % 2 == 0;
  }

  /** The workspace of layer `l`, written out. */
  lemma CnnWorkspaceRow(draws: seq<CnnDraw>, l: nat)
    requires l < |draws|
    ensures CnnRow(draws, 2 * l + 1)
         == Row(CnnBufferId(2 * l + 1), Clock(draws, l) + draws[l].startF + draws[l].shiftW,
                Clock(draws, l) + draws[l].startF + draws[l].shiftW + 2 + draws[l].extraW, Scaled(draws[l].sizeW, l))
  {
    var k := 2 * l + 1;
    Halves(l);
    assert k / 2 == l && k % 2 == 1;
  }

  lemma Halves(l: nat)
    ensures (2 * l) / 2 == l && (2 * l) % 2 == 0
    ensures (2 * l + 1) / 2 == l && (2 * l + 1) % 2 == 1
  {
  }

  /** Each layer starts one to `1 + jitter` steps after the previous one. */
  lemma CnnLayerStagger(draws: seq<CnnDraw>, jitter: int, l: nat)
    requires l + 1 < |draws|
    requires forall k :: 0 <= k < |draws| ==> CnnDrawOk(draws[k], jitter)
    ensures CnnRow(draws, 2 * l).lower + 1 <= CnnRow(draws, 2 * l + 2).lower
                                         <= CnnRow(draws, 2 * l).lower + 1 + jitter
  {
    assert CnnDrawOk(draws[l + 1], jitter);
    assert (2 * l) / 2 == l && (2 * l + 2) / 2 == l + 1;
  }

  /** `generate_cnn_like(prefix, layers, lifetime_jitter)`. */
  function CnnLike(prefix: string, layers: int, jitter: int, draws: seq<CnnDraw>): (g: Generated)
    requires |draws| == RangeLength(layers)
    requires forall k :: 0 <= k < |draws| ==> CnnDrawOk(draws[k], jitter)
    ensures |g.rows| == 2 * RangeLength(layers)
    ensures g.rows == CnnRows(draws)
    ensures forall k :: 0 <= k < |g.rows| ==> g.rows[k].id == CnnBufferId(k)
    ensures forall l :: 0 <= l < RangeLength(layers) ==>
      LayerShape(g.rows[2 * l], g.rows[2 * l + 1], jitter) && g.rows[2 * l].lower >= l
    ensures forall l :: 0 <= l < RangeLength(layers) - 1 ==>
      g.rows[2 * l].lower + 1 <= g.rows[2 * l + 2].lower <= g.rows[2 * l].lower + 1 + jitter
    ensures DistinctIds(g.rows)
    ensures WellFormed(g.rows)
    ensures IsPeak(g.rows, g.capacity)
    ensures g.filename == FileName(prefix, g.capacity)
    ensures NoMatch(Cap, prefix) ==> ParseCapacity(g.filename) == Success(g.capacity)
  {
    var rows := CnnRows(draws);
    CnnFacts(draws, jitter, rows);
    var g := Emit(prefix, rows);
    assert g.rows == rows;
    g
  }

  lemma CnnFacts(draws: seq<CnnDraw>, jitter: int, rows: seq<Row>)
    requires forall k :: 0 <= k < |draws| ==> CnnDrawOk(draws[k], jitter)
    requires rows == CnnRows(draws)
    ensures forall l :: 0 <= l < |draws| ==>
      LayerShape(rows[2 * l], rows[2 * l + 1], jitter) && rows[2 * l].lower >= l
    ensures forall l :: 0 <= l < |draws| - 1 ==>
      rows[2 * l].lower + 1 <= rows[2 * l + 2].lower <= rows[2 * l].lower + 1 + jitter
    ensures DistinctIds(rows)
    ensures WellFormed(rows)
  {
    forall l | 0 <= l < |draws|
      ensures LayerShape(rows[2 * l], rows[2 * l + 1], jitter) && rows[2 * l].lower >= l
    {
      CnnLayerShape(draws, jitter, l);
    }
    forall l | 0 <= l < |draws| - 1
      ensures rows[2 * l].lower + 1 <= rows[2 * l + 2].lower <= rows[2 * l].lower + 1 + jitter
    {
      CnnLayerStagger(draws, jitter, l);
    }
    forall k | 0 <= k < |rows| ensures WellFormedRow(rows[k]) {
      var l := k / 2;
      CnnLayerShape(draws, jitter, l);
      assert k == 2 * l || k == 2 * l + 1;
    }
    forall i, j | 0 <= i < |rows| && 0 <= j < |rows| && i != j ensures rows[i].id != rows[j].id {
      TaggedIdsDistinct(CnnTag(i), CnnTag(j), i, j);
    }
  }

  // ----- the suite's file names -----

  /** The type tag of a suite name is its letters. */
  lemma SuiteTypeTag(tag: string, rest: string)
    requires 1 <= |tag| && AllLetters(tag)
    ensures TypeTag(tag + "_" + rest) == tag
  {
    var name := tag + "_" + rest;
    assert name[..|tag|] == tag;
    assert name[|tag|] == '_';
  }

  /** The first underscore of a suite name is the one after the tag. */
  lemma SuiteIndexMatch(tag: string, d: string, tail: string)
    requires AllLetters(tag)
    requires 1 <= |d| && AllDigits(d)
    requires 1 <= |tail| && !IsDigit(tail[0])
    ensures FirstMatchAt(Underscore, tag + "_" + d + tail, |tag|)
    ensures GroupAt(Underscore, tag + "_" + d + tail, |tag|) == d
  {
    var name := tag + "_" + d + tail;
    var n := |tag|;
    assert name[n..n + 1] == "_";
    assert name[n + 1] == d[0];
    assert MatchAt(Underscore, name, n);
    forall j | 0 <= j < n ensures !MatchAt(Underscore, name, j) {
      assert name[j] == tag[j];
      assert name[j..j + 1] == [name[j]];
    }
    assert name[n + 1..n + 1 + |d|] == d;
    assert name[n + 1 + |d|] == tail[0];
    DigitRunEndUnique(name, n + 1, n + 1 + |d|);
  }

  /** The suite names its workloads `rand_<k>`, `stress_<k>` and `cnn_<k>`;
      for such a name the runner's sort key is `(rank of the tag, k)`. */
  lemma SuiteFileKey(tag: string, k: nat, c: nat)
    requires 1 <= |tag| && AllLetters(tag)
    ensures ExtractTypeIndex(FileName(tag + "_" + NatToString(k), c)) == SortKey(TypeOrder(tag), Finite(k))
  {
    var d := NatToString(k);
    var tail := ".cap" + NatToString(c) + ".csv";
    assert FileName(tag + "_" + d, c) == tag + "_" + d + tail;
    SuiteKeyOf(tag, d, tail);
    DigitsValueOfNatToString(k);
  }

  /** The key of `<tag>_<digits><tail>` when the tail starts with a non-digit. */
  lemma SuiteKeyOf(tag: string, d: string, tail: string)
    requires 1 <= |tag| && AllLetters(tag)
    requires 1 <= |d| && AllDigits(d)
    requires 1 <= |tail| && !IsDigit(tail[0])
    ensures ExtractTypeIndex(tag + "_" + d + tail) == SortKey(TypeOrder(tag), Finite(DigitsValue(d)))
  {
    assert tag + "_" + d + tail == tag + "_" + (d + tail);
    SuiteKeyType(tag, d + tail);
    SuiteKeyIndex(tag, d, tail);
  }

  lemma SuiteKeyType(tag: string, rest: string)
    requires 1 <= |tag| && AllLetters(tag)
    ensures ExtractTypeIndex(tag + "_" + rest).typeOrder == TypeOrder(tag)
  {
    SuiteTypeTag(tag, rest);
  }

  lemma SuiteKeyIndex(tag: string, d: string, tail: string)
    requires AllLetters(tag)
    requires 1 <= |d| && AllDigits(d)
    requires 1 <= |tail| && !IsDigit(tail[0])
    ensures ExtractTypeIndex(tag + "_" + d + tail).index == Finite(DigitsValue(d))
  {
    SuiteIndexMatch(tag, d, tail);
  }

  /** The suite's prefixes hold no `cap<digit>`, so the runner reads back the
      capacity each generator computed. */
  lemma SuitePrefixHasNoCap(tag: string, k: nat)
    requires tag in {"rand", "stress", "cnn"}
    ensures NoMatch(Cap, tag + "_" + NatToString(k))
  {
    var d := NatToString(k);
    var s := tag + "_" + d;
    forall i | 0 <= i < |s| ensures !MatchAt(Cap, s, i) {
      if i + 3 < |s| {
        if i < |tag| {
          assert s[i] == tag[i];
          assert s[i..i + 3][0] == s[i];
          if tag == "cnn" { assert i == 0 ==> s[i + 1] == 'n'; assert s[i..i + 3][1] == s[i + 1]; }
        } else {
          assert s[i..i + 3][0] == s[i];
          assert i == |tag| || s[i] == d[i - |tag| - 1];
        }
      }
    }
  }

  /** The runner visits the suite's files by workload type (`rand`, then
      `stress`, then `cnn`) and then by numeric index, so `rand_2` comes
      before `rand_10`. */
  lemma SuiteOrder(tag1: string, k1: nat, c1: nat, tag2: string, k2: nat, c2: nat)
    requires tag1 in {"rand", "stress", "cnn"} && tag2 in {"rand", "stress", "cnn"}
    ensures KeyLess(ExtractTypeIndex(FileName(tag1 + "_" + NatToString(k1), c1)),
                    ExtractTypeIndex(FileName(tag2 + "_" + NatToString(k2), c2)))
            <==> TypeOrder(tag1) < TypeOrder(tag2) || (tag1 == tag2 && k1 < k2)
  {
    SuiteTagIsWord(tag1);
    SuiteTagIsWord(tag2);
    SuiteFileKey(tag1, k1, c1);
    SuiteFileKey(tag2, k2, c2);
  }

  lemma SuiteTagIsWord(tag: string)
    requires tag in {"rand", "stress", "cnn"}
    ensures 1 <= |tag| && AllLetters(tag)
  {
  }

  lemma Rand2BeforeRand10(c1: nat, c2: nat)
    ensures var tag := "rand";
      KeyLess(ExtractTypeIndex(FileName(tag + "_" + NatToString(2), c1)),
              ExtractTypeIndex(FileName(tag + "_" + NatToString(10), c2)))
  {
    SuiteOrder("rand", 2, c1, "rand", 10, c2);
  }
}

=== FILE: workload.dfy ===
/** Workloads: rows `[id, lower, upper, size]` describing buffers live during
    the half-open interval `[lower, upper)`, and the file name that carries a
    workload's capacity. */
module Workload {
  import opened Decimal

  /** One CSV row `id,lower,upper,size`. */
  datatype Row = Row(id: string, lower: int, upper: int, size: int)

  /** The three integers a generator draws for one numbered row. */
  datatype Span = Span(lower: int, upper: int, size: int)

  function SpanOf(r: Row): Span { Span(r.lower, r.upper, r.size) }

  predicate WellFormedRow(r: Row) { r.lower < r.upper && r.size > 0 }

  /** Every buffer has a non-empty lifetime and a positive size. */
  predicate WellFormed(rows: seq<Row>)
  {
    forall i :: 0 <= i < |rows| ==> WellFormedRow(rows[i])
  }

  /** No buffer ends before it starts (empty lifetimes allowed). */
  predicate LifetimesOrdered(rows: seq<Row>)
  {
    forall i :: 0 <= i < |rows| ==> rows[i].lower <= rows[i].upper
  }

  predicate NonNegativeSizes(rows: seq<Row>)
  {
    forall i :: 0 <= i < |rows| ==> rows[i].size >= 0
  }

  predicate DistinctIds(rows: seq<Row>)
  {
    forall i, j :: 0 <= i < j < |rows| ==> rows[i].id != rows[j].id
  }

  /** Sum of all sizes. */
  function TotalSize(rows: seq<Row>): int
    decreases |rows|
  {
    if rows == [] then 0 else TotalSize(rows[..|rows| - 1]) + rows[|rows| - 1].size
  }

  predicate LiveAt(r: Row, t: int) { r.lower <= t < r.upper }

  /** Total size of the buffers live at time `t`. */
  function Live(rows: seq<Row>, t: int): int
    decreases |rows|
  {
    if rows == [] then 0
    else Live(rows[..|rows| - 1], t) + (if LiveAt(rows[|rows| - 1], t) then rows[|rows| - 1].size else 0)
  }

  /** `c` is the maximum over all times of the live total. */
  ghost predicate IsPeak(rows: seq<Row>, c: int)
  {
    && (forall t :: Live(rows, t) <= c)
    && (exists t :: Live(rows, t) == c)
  }

  /** Rows `tag + str(i)` for i = 0, 1, ... over the drawn spans, as the
      generators build them with `f"{tag}{i}"`. */
  function Numbered(tag: string, spans: seq<Span>): (rows: seq<Row>)
    ensures |rows| == |spans|
    ensures forall i :: 0 <= i < |rows| ==> rows[i].id == tag + NatToString(i) && SpanOf(rows[i]) == spans[i]
  {
    seq(|spans|, i requires 0 <= i < |spans| =>
      Row(tag + NatToString(i), spans[i].lower, spans[i].upper, spans[i].size))
  }

  /** Ids made of equally long tags and numbers differ when the numbers do. */
  lemma TaggedIdsDistinct(tag1: string, tag2: string, i: nat, j: nat)
    requires |tag1| == |tag2|
    requires i != j
    ensures tag1 + NatToString(i) != tag2 + NatToString(j)
  {
    if tag1 + NatToString(i) == tag2 + NatToString(j) {
      assert NatToString(i) == (tag1 + NatToString(i))[|tag1|..];
      assert NatToString(j) == (tag2 + NatToString(j))[|tag2|..];
      NatToStringInjective(i, j);
    }
  }

  /** Numbered rows never share an id. */
  lemma NumberedDistinct(tag: string, spans: seq<Span>)
    ensures DistinctIds(Numbered(tag, spans))
  {
    var rows := Numbered(tag, spans);
    forall i, j | 0 <= i < j < |rows|
      ensures rows[i].id != rows[j].id
    {
      TaggedIdsDistinct(tag, tag, i, j);
    }
  }

  /** `f"{prefix}.cap{capacity}.csv"`. */
  function FileName(prefix: string, capacity: nat): string
  {
    prefix + ".cap" + NatToString(capacity) + ".csv"
  }

  /** A buffer live at `t` contributes its whole size to the live total. */
  lemma {:induction false} LiveAtLeastOne(rows: seq<Row>, i: int, t: int)
    requires NonNegativeSizes(rows)
    requires 0 <= i < |rows| && LiveAt(rows[i], t)
    ensures Live(rows, t) >= rows[i].size
    decreases |rows|
  {
    var init := rows[..|rows| - 1];
    assert NonNegativeSizes(init) by {
      forall k | 0 <= k < |init| ensures init[k].size >= 0 { assert init[k] == rows[k]; }
    }
    if i < |rows| - 1 {
      assert init[i] == rows[i];
      LiveAtLeastOne(init, i, t);
    } else {
      LiveNonNegative(init, t);
    }
  }

  lemma {:induction false} LiveNonNegative(rows: seq<Row>, t: int)
    requires NonNegativeSizes(rows)
    ensures Live(rows, t) >= 0
    decreases |rows|
  {
    if rows != [] {
      var init := rows[..|rows| - 1];
      assert NonNegativeSizes(init) by {
        forall k | 0 <= k < |init| ensures init[k].size >= 0 { assert init[k] == rows[k]; }
      }
      LiveNonNegative(init, t);
    }
  }

  /** When every buffer is live at `t`, the live total is the total size. */
  lemma {:induction false} LiveAllIsTotal(rows: seq<Row>, t: int)
    requires forall i :: 0 <= i < |rows| ==> LiveAt(rows[i], t)
    ensures Live(rows, t) == TotalSize(rows)
    decreases |rows|
  {
    if rows != [] {
      var init := rows[..|rows| - 1];
      assert forall i :: 0 <= i < |init| ==> LiveAt(init[i], t) by {
        forall i | 0 <= i < |init| ensures LiveAt(init[i], t) { assert init[i] == rows[i]; }
      }
      LiveAllIsTotal(init, t);
    }
  }
}

=== FILE: wrappers.dfy ===
/** Failure-carrying result types shared by the model. */
module Wrappers {

  /** An optional value; `None` also stands for pandas' NaN (the max, min or
      mean of an empty column). */
  datatype Option<+T> = None | Some(value: T)

  /** The outcome of an operation that can raise: `Failure` carries the message
      of the exception the program would raise. */
  datatype Result<+R, +E> = Success(value: R) | Failure(error: E)
}
